=== FILE: README.md ===
# nameIT-lib core, modelled in Dafny

nameIT-lib is a small kit of DOM widgets (button, input, dropdown, loader,
navigation bar, table, toasts) built on a handful of shared pieces. These
shared pieces are:

- a light/dark theme cell;
- design tokens;
- a base style applicator that writes a theme-dependent bundle of inline
  style properties onto an element;
- a toast publish/subscribe manager;
- a form validator;
- a locale registry with a path-lookup translation function `t`.

This project models those pieces and the widgets' state and lookup tables
as immutable Dafny datatypes and pure functions, and proves what the code
promises about them.

Conventions of the model:

- An element's inline style is `Style.StyleMap`, a record with one optional
  string per property the widgets write. `None` is a property never set.
- A DOM element is a small record holding its text, attributes and style.
  A container's children are a sequence.
- The theme in force is a parameter wherever the code reads `getTheme()`.
  The theme store itself is `ThemeMode.Store`.
- A string option that the code matches against a fixed list is a closed
  datatype with one extra `Unlisted…` variant. This variant stands for any
  other string, so the code's `default:` branches are modelled too.
  Those strings are only matched, never compared with each other, except
  for the loader's type, which `setType` compares. That variant therefore
  keeps the string: `Loader.UnlistedType(name)`.
- JavaScript `s || fallback` on an optional string is `Wrappers.StrOr`.
  Both the absent value and `""` are falsy.
- `document.getElementById` is a set of the ids present in the document.
  A thrown `Error` is a `Failure` carrying its message.
- The toast manager's listeners are natural-number ids. The generated UUID
  is an argument supplied by the caller.

The toast manager passes an absent duration through unchanged
(`ToastBus.Stamp`). Only the toast widget falls back to 3000 ms, for its
fade timer (`ToastWidget.FadeDelay`), and it does so for a duration of 0
as well.

Files: `wrappers.dfy`, `tokens.dfy`, `theme_mode.dfy`, `style.dfy`,
`base_styles.dfy`, `number.dfy`, `toast_bus.dfy`, `form_validation.dfy`,
`locales.dfy`, `loader.dfy`, `dropdown.dfy`, `table.dfy`, `navigation.dfy`,
`input.dfy`, `button.dfy`, `toast_widget.dfy`. There is one module per
source file, and each module is named after its file.

## Model

| member | source | states |
|---|---|---|
| ThemeMode.SetTheme | src/theme/mode.ts:5-8 | after `setTheme(m)` the mode read back is m and the root `data-theme` attribute is m's name |
| ThemeMode.LastSetWins | src/theme/mode.ts:5-12 | after any run of `setTheme` calls, `getTheme` returns the last mode set, the attribute mirrors it, and an empty run changes nothing |
| ThemeMode.InitialIsLight | src/theme/mode.ts:3 | the initial mode is light and no attribute contradicts it |
| ThemeMode.InkPaperSwap | src/utils/baseStyles.ts:58-64 | the ink colour (background token in dark, foreground token in light) always differs from the paper colour, and the theme swaps them |
| BaseStyles.Reset | src/utils/baseStyles.ts:17-20 | margin "0", padding "0" and boxSizing "border-box" are written and nothing else changes |
| BaseStyles.Typography | src/utils/baseStyles.ts:22-37 | heading: heading font, weight 600, line-height 1.25; interactive: body font, pointer cursor, no user select, line-height untouched; text, container and unlisted types: body font, line-height 1.5; nothing else changes |
| BaseStyles.Sizing | src/utils/baseStyles.ts:39-56 | font size from the xs..xl table (0.75, 0.875, 1, 1.125, 1.25 rem); an unlisted size leaves it untouched |
| BaseStyles.Colouring | src/utils/baseStyles.ts:58-64 | the text colour is the theme's ink for every type; only a container also gets the paper background |
| BaseStyles.Bordering | src/utils/baseStyles.ts:66-72 | bordered: a 1px solid ink border and radius 50% if rounded else 4px; rounded only: radius 50% and the border untouched; neither: both untouched |
| BaseStyles.Shadowing | src/utils/baseStyles.ts:74-77 | boxShadow is written only when shadow is on |
| BaseStyles.Transitioning | src/utils/baseStyles.ts:79-82 | transition is written only for the interactive type |
| BaseStyles.Apply | src/utils/baseStyles.ts:13-83 | the final value of each of the 15 cascade properties in terms of the options, the theme and the prior style, and every other property left as it was |
| BaseStyles.ApplyIsOverlay | src/utils/baseStyles.ts:13-83 | applying the styles equals overlaying one bundle that depends only on theme and options, given as an independent table |
| BaseStyles.ApplyIdempotent | src/utils/baseStyles.ts:13-83 | two applications under the same theme and options equal one |
| BaseStyles.ElementOnlyDefaults | src/utils/baseStyles.ts:15-49 | an element-only call behaves as text, md and all flags off: body font, line-height 1.5, 1rem, ink, and border, radius, shadow, background, cursor and transition untouched |
| Number.Clamp | src/utils/number.ts:2-4 | a value inside [min, max] is returned unchanged, one below min gives min, one above max gives max, and the result lies in [min, max] when min ≤ max; when min > max the result is min |
| ToastBus.Subscribe | src/hooks/useToast.ts:15-16 | the listener is registered and every other listener keeps its membership |
| ToastBus.Unsubscribe | src/hooks/useToast.ts:17 | the returned function removes exactly that listener and keeps every other |
| ToastBus.Stamp | src/hooks/useToast.ts:20-21 | the delivered record carries the caller's type, message and duration unchanged (an absent duration stays absent) plus the generated id |
| ToastBus.Show | src/hooks/useToast.ts:20-23 | every current listener is invoked exactly once, no one else is invoked, and all receive the same record; with no listeners nothing is delivered |
| ToastBus.RunMembership | src/hooks/useToast.ts:13-18 | under any interleaving of subscribes and unsubscribes a listener is registered exactly when the last operation naming it was a subscribe (so a double subscribe registers once and a repeated unsubscribe is a no-op) |
| ToastBus.SubscribeUnsubscribeInverse | src/hooks/useToast.ts:15-18 | unsubscribing a freshly subscribed listener restores the registry |
| FormValidation.ErrorsDomain | src/hooks/useFormValidation.ts:13-17 | a field is in the error map exactly when at least one rule for it fails on `data[field]` |
| FormValidation.ErrorsLast | src/hooks/useFormValidation.ts:13-16 | a recorded field holds the message of the last failing rule for it in list order |
| FormValidation.ErrorsCharacterised | src/hooks/useFormValidation.ts:13-17 | both facts above for every field at once |
| FormValidation.ValidateForm | src/hooks/useFormValidation.ts:7-23 | `valid` holds exactly when the error map has no keys, which is exactly when no rule fails; the map's keys and values are as above |
| FormValidation.EmptyRulesValid | src/hooks/useFormValidation.ts:11-22 | no rules give valid and an empty map |
| FormValidation.PassingRuleKeepsErrors | src/hooks/useFormValidation.ts:14-16 | a passing rule leaves every recorded error as it was |
| FormValidation.FailingRuleOverwrites | src/hooks/useFormValidation.ts:14-15 | a failing rule overwrites only its own field with its message |
| Locales.RegisterLocale | src/locales/index.ts:7-9 | the table becomes lang's, replacing any earlier one; other languages and the current language are unchanged |
| Locales.SetLanguage | src/locales/index.ts:12-18 | an unregistered language fails with "Locale '<lang>' not registered" and changes nothing; a registered one becomes current |
| Locales.Split | src/locales/index.ts:21 | `split('.')` yields at least one piece, none containing a dot |
| Locales.JoinSplit | src/locales/index.ts:21 | the pieces joined with dots give back the path |
| Locales.SplitJoin | src/locales/index.ts:21 | dot-free keys joined with dots split back into the same keys |
| Locales.SplitDotFreePrefix | src/locales/index.ts:21 | a dot-free prefix extends the first piece only |
| Locales.FindFirst | src/locales/index.ts:31 | the position found is the first occurrence of the pattern, and none means no occurrence |
| Locales.ExpandPlain | src/locales/index.ts:31 | a replacement with no `$` pattern is inserted verbatim |
| Locales.ReplaceFirstPlain | src/locales/index.ts:31 | `replace` with a string pattern changes only the first occurrence and keeps the rest, later occurrences included |
| Locales.T | src/locales/index.ts:20-36 | `t` gives back the path when the current language is unregistered, when a segment resolves to null or undefined, or when the final value is not a string; a string found is returned, interpolated in variable order when variables are given |
| Locales.LookupByKeys | src/locales/index.ts:20-36 | looking up a path built from dot-free keys walks exactly those keys and returns the string found, interpolated in variable order when variables are given and verbatim otherwise |
| Locales.RegisterThenSelect | src/locales/index.ts:3-36 | registering and selecting a language makes `t` return its top-level string entries |
| Loader.ResolveDefaults | src/components/Loader/index.ts:21-26 | the constructor defaults to spinner and md for options left out, and caller options override them, even an explicit `undefined`; that type still builds the spinner and that size still reads the md rows |
| Loader.SizeTables | src/components/Loader/index.ts:150-164 | size values 24/32/48 and font sizes 0.75/0.875/1 rem for sm, md and lg, with md as the default row, and the resulting bar tracks of 48x6, 64x8 and 96x12 px |
| Loader.Build | src/components/Loader/index.ts:44-131 | bar and progress build the same bar, twice as wide as the size, at least 4px high, with the initial fill the progress option or 0; dots builds three dots a quarter of the size wide, delayed by 0.16s steps; spinner and any unlisted type build the spinner |
| Loader.Create | src/components/Loader/index.ts:21-34 | the loader keeps the options it was given; the indicator is the first child, and a message child follows exactly when the message option is a non-empty string |
| Loader.SetProgress | src/components/Loader/index.ts:166-173 | on bar and progress loaders the fill becomes the progress clamped to [0, 100]; on other types nothing changes; the indicator stays the one the type builds |
| Loader.SetProgressBounded | src/components/Loader/index.ts:166-173 | after `setProgress` the fill lies in [0, 100], and repeating the call changes nothing |
| Loader.SetMessage | src/components/Loader/index.ts:175-186 | an existing message takes the new text, even an empty one, and keeps its place, size and colour; without one, only a non-empty text creates a message, appended last, and an empty text changes nothing |
| Loader.SetTypeAsWritten | src/components/Loader/index.ts:188-195 | the current type is a no-op; a new type is recorded in the options, and the indicator is rebuilt for it and appended after any message |
| Loader.UndefinedTypeRebuilt | src/components/Loader/index.ts:22-26 | a loader whose type was passed as `undefined` shows a spinner, yet `setType("spinner")` rebuilds it and, with a message present, puts the indicator below the message |
| Loader.UnlistedTypesCompareByName | src/components/Loader/index.ts:188-195 | two different unlisted type names both build the spinner, yet switching from one to the other records the new name and, with a message present, moves the indicator below the message |
| Loader.SetTypeMovesMessage | src/components/Loader/index.ts:188-195 | with a message present, changing the type as written puts the message above the indicator |
| Loader.SetType | src/components/Loader/index.ts:188-195 | corrected: the rebuilt indicator keeps its place and the message is kept |
| Loader.RunKeepsIndicatorFirst | src/components/Loader/index.ts:166-195 | with the corrected `setType`, any run of calls keeps the indicator first and of the kind its type selects |
| Dropdown.ContainerStyle | src/components/Dropdown/index.ts:18-26 | the container is relative, inline-block, painted in paper and ink, and has no cursor or transition |
| Dropdown.MenuStyle | src/components/Dropdown/index.ts:41-55 | the menu is hidden, absolute, anchored at the align side (left by default) with the other side unset, below the trigger, bordered, rounded 4px, shadowed and painted in paper |
| Dropdown.ItemStyle | src/components/Dropdown/index.ts:57-69 | an item is a full-width, left-aligned, borderless, square block that keeps the pointer, transition, size and ink from its interactive base styles |
| Dropdown.Items | src/components/Dropdown/index.ts:57-84 | one item per entry, in order, with the entry's text and action |
| Dropdown.CreateAsWritten | src/components/Dropdown/index.ts:17-87 | as written, the second base-style call is applied to the container and the trigger gets only its padding; the menu starts closed |
| Dropdown.TriggerUnstyled | src/components/Dropdown/index.ts:28-38 | as written, the trigger has no cursor or colour and the container gains the pointer cursor and transition; the corrected trigger has the pointer and the corrected container has none |
| Dropdown.TriggerStyle | src/components/Dropdown/index.ts:28-38 | corrected: the trigger has interactive styles, ink, no border or radius, and its padding |
| Dropdown.Create | src/components/Dropdown/index.ts:17-87 | corrected constructor: the container, trigger, menu and items each get their own base styles and overrides; the menu starts closed with one item per entry, carrying the entry's text and action |
| Dropdown.Open | src/components/Dropdown/index.ts:92-95 | open sets the flag and the menu's display to block; the items, trigger, label, container and every other menu property are left as they were |
| Dropdown.Close | src/components/Dropdown/index.ts:97-100 | close clears the flag and sets the menu's display to none; the items, trigger, label, container and every other menu property are left as they were |
| Dropdown.Toggle | src/components/Dropdown/index.ts:89-91 | toggle flips the flag and sets the display to match it; nothing else changes |
| Dropdown.ToggleTwice | src/components/Dropdown/index.ts:89-100 | two toggles restore the widget exactly |
| Dropdown.ClickItem | src/components/Dropdown/index.ts:79-82 | clicking an item hands back its action and hides the menu; nothing else changes |
| Table.New | src/components/Table/index.ts:12-16 | the constructor fails, with `Table container "<id>" not found.`, exactly when no element has the id |
| Table.Cell | src/components/Table/index.ts:55 | a cell is the record's value for the column, or "" when the column is missing |
| Table.BuildRow | src/components/Table/index.ts:52-59 | one cell per column, in column order |
| Table.Render | src/components/Table/index.ts:18-65 | the previous content is dropped; empty data shows only a notice with `emptyMessage` or "No data available"; otherwise the header lists the columns in order and there is one body row per record, in order, with one cell per column; the result equals an independent comprehension |
| Navigation.New | src/components/Navigation/index.ts:13-17 | the constructor fails, with `Navigation container "<id>" not found.`, exactly when no element has the id, and starts closed with no links |
| Navigation.ListOf | src/components/Navigation/index.ts:53-69 | no links give the single placeholder "No navigation items available"; otherwise one anchor per link with href and label copied, in order |
| Navigation.ToggledClass | src/components/Navigation/index.ts:80 | the class starts with the word `flex` exactly when open and `hidden` exactly when closed, with a constant remainder |
| Navigation.RenderAsWritten | src/components/Navigation/index.ts:19-74 | as written, render stores the links and rebuilds the hidden list but keeps the open flag; the container is unchanged |
| Navigation.Render | src/components/Navigation/index.ts:19-74 | corrected: render also resets the open flag, to match the hidden list |
| Navigation.ToggleMenu | src/components/Navigation/index.ts:76-82 | the flag flips and, once the list exists, its class is rewritten for the new flag; the links are untouched |
| Navigation.SyncedKept | src/components/Navigation/index.ts:19-82 | toggling and the corrected render keep the list's visibility in step with the flag, and two toggles restore the flag |
| Navigation.RenderLeavesFlagStale | src/components/Navigation/index.ts:19-82 | as written, after opening and re-rendering the flag says open while the list is hidden, and the next toggle hides an already hidden list |
| Input.FieldStyle | src/components/Input/index.ts:74-98 | the size table (sm 4px 8px, 0.875rem, 12px/4px; lg 16px 24px, 1.125rem, 20px/6px; any other size 8px 16px, 1rem, 16px/4px), ink text on paper with a 1px ink border, and no border colour or ring yet |
| Input.Create | src/components/Input/index.ts:35-213 | type defaults to text and value to ""; the field takes the size row; a label exists exactly when the label option is non-empty and carries " *" in the error colour exactly when required; an error option shows its text and sets the error border colour |
| Input.Children | src/components/Input/index.ts:124-212 | the label, if any, comes first; the input is always present; an error line, if any, is last, so there is at most one |
| Input.SetValue | src/components/Input/index.ts:219-221 | the value is written and nothing else changes |
| Input.SetValueGetValue | src/components/Input/index.ts:215-221 | `getValue` after `setValue(v)` gives v, and the last write wins |
| Input.SetError | src/components/Input/index.ts:223-245 | a non-empty error replaces any shown one and sets the error border colour; null or "" removes it and restores the current theme's ink; nothing else changes |
| Input.SetErrorReplaces | src/components/Input/index.ts:223-245 | a second `setError` replaces the first, and clearing leaves no error line |
| Input.Focus | src/components/Input/index.ts:100-104 | focus sets the primary border colour and the primary focus ring |
| Input.Blur | src/components/Input/index.ts:106-110 | blur sets the ink of the theme read at set-up and removes the ring |
| Input.RunKeepsLayout | src/components/Input/index.ts:100-245 | no sequence of value, error, focus and blur steps touches the label, helper, other attributes or any style property except the border colour and ring |
| Input.BlurHidesErrorBorder | src/components/Input/index.ts:106-110 | after an error is shown, focus then blur restores the ink border while the error line stays |
| Input.RequiredNeedsLabel | src/components/Input/index.ts:128-143 | without a label the required marker is not shown, though the field is still required |
| Button.TextColor | src/components/Button/index.ts:41-43 | the text colour is the paper colour, never the ink |
| Button.Create | src/components/Button/index.ts:17-38 | type defaults to "button" and disabled to false; the variant colour, the inverted text colour and the size row replace the base-style values for those four properties; the 1px ink border, 4px radius, pointer and transition come from the base styles, and every other property is the base style's |
| Button.VariantTable | src/components/Button/index.ts:45-63 | an absent or unlisted variant paints the primary colour, and the five named variants paint five different colours |
| Button.SetText | src/components/Button/index.ts:101-103 | only the label changes |
| Button.SetDisabled | src/components/Button/index.ts:105-109 | sets the flag, opacity 0.7 or 1 and cursor not-allowed or pointer, and nothing else |
| Button.SetDisabledLastWins | src/components/Button/index.ts:105-109 | only the last `setDisabled` is visible |
| Button.SetDisabledCommutesWithText | src/components/Button/index.ts:101-109 | the label and the disabled state do not interfere |
| Button.DisabledAtConstruction | src/components/Button/index.ts:33 | a button constructed disabled keeps the enabled look: pointer cursor and no opacity |
| ToastWidget.BackgroundFor | src/components/Toast/index.ts:45-55 | success and error use their tokens; info and any other type use the secondary token |
| ToastWidget.FadeDelay | src/components/Toast/index.ts:42 | the `duration`-or-3000 rule: an absent or zero duration gives 3000, any other is kept |
| ToastWidget.Render | src/components/Toast/index.ts:21-35 | the element's text is the message, `data-id` is the id, the background is the type's colour, the text is the background token, and it starts opaque |
| ToastWidget.FadeStart | src/components/Toast/index.ts:37-42 | the fade timer's delay is the fade delay converted to a 32-bit signed integer, with a negative result read as 0; a delay in [0, 2^31) is kept as is |
| ToastWidget.FadeStartWraps | src/components/Toast/index.ts:37-42 | a duration of 2^31 ms fades at once, 2^32 + 1000 ms fades after 1000 ms, a negative one fades at once, and none or 0 waits 3000 ms |
| ToastWidget.At | src/components/Toast/index.ts:37-42 | the toast is shown until the fade starts, transparent for the next 300 ms, then removed |
| ToastWidget.RemovedStaysRemoved | src/components/Toast/index.ts:37-42 | once removed, a toast never comes back; with no duration it shows for 3000 ms and is gone at 3300 ms |
| ToastWidget.Create | src/components/Toast/index.ts:7-19 | each widget adds one new listener to the manager: the listener count grows by exactly one |
| ToastWidget.Publish | src/components/Toast/index.ts:18-43 | a `show` on the manager after construction makes the widget append exactly one element, carrying the caller's message, the generated id and the type's colour |

## Left out

- Event listeners, timers and the DOM tree are left out: hover effects (button opacity, dropdown item background), change and key callbacks, and `destroy`. Focus and blur are modelled as the two handler effects, and the toast timers as the time elapsed since arrival.
- `roundTo` is left out. It is IEEE floating-point multiply, round and divide.
- JavaScript numbers are exact reals (`Number.Clamp`, the loader geometry). NaN, infinities and number-to-string formatting of pixel values are left out.
- Loader.Build: states the spinner ring width only as at least 2px. The body computes `max(2, size / 10)` as the source does, and the spinner's remaining styles and the keyframe `<style>` injection are left out.
- The container layout styles are not part of this model: the loader's inline flex, the input's flex column, the toast container's fixed position, the navigation bar's wrapper, brand and icon, and the table's fixed styles (its width and border-collapse, the header and body cells' padding and borders, and the header colours). Each is a constant list of writes with no behaviour.
- The Input icon wrapper (`prefixIcon`, `suffixIcon`) is left out. It re-parents the input and pads it via a `calc()` of the browser's shorthand expansion, which is CSSOM behaviour.
- The Input `bordered` option is read nowhere in the source, so the model has no such option.
- An invalid theme string is not modelled; the theme is closed to light and dark.
- Input type, HTML button type and autocomplete strings are copied as given. Browser normalisation of invalid values is left out.
- Input.SetValue: the value is stored as the string given. A browser sanitises a value written to an `<input>`: line breaks are stripped for text, search, tel and password; url and email are also trimmed; and an invalid number becomes "". So in the code `setValue("a\nb")` then `getValue()` gives "ab", while `Input.SetValueGetValue` gives the string back unchanged. `Input.Create`'s initial value is stored unsanitised in the same way.
- Table.Cell: a record is a plain object, so a column named after an inherited member (`constructor`, `toString`, `__proto__`) reads that member in the code, which is truthy and is shown as its string form. The model's record has only its own keys, and such a cell is "".
- Locales.T: strings are sequences of Unicode scalar values, so indexing a string value by a numeric key counts code points. JavaScript counts UTF-16 code units. For a value outside the Basic Multilingual Plane (an emoji, say), a key such as `1` therefore reads a lone surrogate in the code, but the next code point or nothing in the model. Other encodings and normalisation are left out too.
- Locale lookups ignore prototype members (`toString` and the like) and a string's `length`. The latter ends in returning the path in every case anyway.
- `Object.entries` ordering of the variables is taken as the given sequence order. Integer-like keys, which JavaScript reorders, are not singled out.
- Navigation.ToggleMenu: the source finds the list with a document-wide `getElementById('nav-links')`. The model takes that to be this bar's own list once it has rendered, and no list before that; other bars and foreign elements with that id are left out.
- ToastWidget.FadeStart: the 32-bit conversion and the clamp of a negative delay to 0 are the timer's behaviour rather than the widget's. Durations are integers, so the truncation of a fractional delay is left out. Timers are assumed to fire exactly on time.
- BaseStyles.Apply: CSS shorthands and their longhands are independent fields of `Style.StyleMap`. In the browser, `margin = '0'` also resets `marginTop` and the other sides. Likewise, `border = '1px solid …'` also sets `borderColor`, `borderWidth` and `borderStyle`. "Every other property left as it was" is therefore true of the properties as assigned, not as the browser reads them back. The same holds for every member that writes a shorthand.
- Input.FieldStyle: "no border colour yet" means the code assigns no `borderColor` of its own. The browser reads back the ink colour from the `border` shorthand. `Input.Create`'s border colour for a falsy error is `None` in the same sense.
- ToastBus.Show: listeners are ids with no behaviour. The code fans out with `Set.forEach`, which calls a listener added during the loop, skips one deleted before its turn, and stops at the first listener that throws. `show` then throws too. "Every current listener exactly once, and no one else" therefore holds only for listeners that neither throw nor subscribe or unsubscribe.
- Locales.SetLanguage: `languages` is a plain object, so a name it inherits (`constructor`, `toString`, …) is found and becomes current instead of failing. `t` then reads that inherited member. The model knows only registered languages, and such a name fails. `registerLocale("__proto__", …)`, which replaces the object's prototype, is left out for the same reason.
- FormValidation.ValidateForm: the record and the error map are plain objects, and their inherited members are left out. The prototype setter drops `errors["__proto__"] = message`, so in the code a failing rule for a field named `__proto__` leaves `valid` true, while the model records the error. Likewise, `data[field]` for an inherited name such as `constructor` reads the inherited member, while the model's rule sees `None`. Validators are total pure functions: one that throws, which aborts `validateForm` with no result, or one with side effects is left out. How many times and in which order the validators are called is therefore not observable in the model. Only the fold's left-to-right effect on the error map is stated.
- ErrorBoundary, Image, Search and the lazy-image hook are not part of this model. They are observer, exception and event plumbing.
- The generated bundle under `dist/` duplicates `src/` and is not modelled.

## Findings

| source | as written | input that shows it | evidently intended | confidence | as-written member | corrected member |
|---|---|---|---|---|---|---|
| src/components/Dropdown/index.ts:31-37 | the second `applyBaseStyles` call, for the trigger, passes `this.container` | any dropdown: the trigger button has no cursor, font or colour of its own, and the container gets the pointer cursor and transition | the call styles `this.trigger` | not executed | Dropdown.CreateAsWritten | Dropdown.Create |
| src/components/Navigation/index.ts:19-21 | `render` rebuilds the list with the hidden class but does not reset `isOpen` | `toggleMenu()` then `render(links)`: `isOpen` is true while the list is hidden, so the next click only "closes" it | `render` resets `isOpen` to false, or writes the class for the current flag | not executed | Navigation.RenderAsWritten | Navigation.Render |
| src/components/Loader/index.ts:188-195 | `setType` removes the indicator and `createLoader` appends the new one at the end of the container | `new Loader({message: "Loading"})` then `setType("dots")`: the message now precedes the indicator | the rebuilt indicator takes the old one's place, before the message | not executed | Loader.SetTypeAsWritten | Loader.SetType |

=== FILE: base_styles.dfy ===
/** The base style applicator: a fixed cascade that writes a theme-dependent
    bundle of inline style properties onto an element. It is a function from
    the theme in force, the options and the element's prior style to the new
    style. */
module BaseStyles {
  import opened Wrappers
  import opened Tokens
  import opened ThemeMode
  import opened Style

  /** The semantic type option. `UnlistedType` stands for any other string,
      which the cascade sends down its default branches. */
  datatype StyleType = Text | Heading | Container | Interactive | UnlistedType

  /** The size names shared by every widget. `UnlistedSize` stands for any
      string outside `xs`..`xl`. */
  datatype Size = Xs | Sm | Md | Lg | Xl | UnlistedSize

  /** The caller's options; `None` is an omitted option. */
  datatype Options = Options(
    styleType: Option<StyleType>,
    size: Option<Size>,
    rounded: Option<bool>,
    shadow: Option<bool>,
    bordered: Option<bool>)

  /** A call that passes only the element. */
  const ElementOnly := Options(None, None, None, None, None)

  // Destructuring defaults: type text, size md, every flag false.
  function TypeOf(o: Options): StyleType { o.styleType.GetOr(Text) }
  function SizeOf(o: Options): Size { o.size.GetOr(Md) }
  function RoundedOf(o: Options): bool { o.rounded.GetOr(false) }
  function ShadowOf(o: Options): bool { o.shadow.GetOr(false) }
  function BorderedOf(o: Options): bool { o.bordered.GetOr(false) }

  /** The font-size table; an unlisted size has no entry. */
  function FontSizeOf(z: Size): Option<string> {
    match z
    case Xs => Some("0.75rem")
    case Sm => Some("0.875rem")
    case Md => Some("1rem")
    case Lg => Some("1.125rem")
    case Xl => Some("1.25rem")
    case UnlistedSize => None
  }

  const BorderedRadius := "4px"
  const RoundRadius := "50%"
  const SoftShadow := "0 2px 4px rgba(0,0,0,0.1)"
  const EaseTransition := "all 0.2s ease"

  /** The border every bordered element gets: one pixel of ink. */
  function InkBorder(t: Theme): string {
    "1px solid " + Ink(t)
  }

  // The cascade, one function per block of the source, in evaluation order.

  function Reset(t: Theme, o: Options, s: StyleMap): (r: StyleMap)
    ensures r.margin == Some("0") && r.padding == Some("0") && r.boxSizing == Some("border-box")
    ensures r == s.(margin := r.margin, padding := r.padding, boxSizing := r.boxSizing)
  {
    s.(margin := Some("0"), padding := Some("0"), boxSizing := Some("border-box"))
  }

  function Typography(t: Theme, o: Options, s: StyleMap): (r: StyleMap)
    ensures r.fontFamily == Some(if TypeOf(o) == Heading then HeadingFont else BodyFont)
    ensures r.fontWeight == if TypeOf(o) == Heading then Some("600") else s.fontWeight
    ensures r.lineHeight == match TypeOf(o)
                            case Heading => Some("1.25")
                            case Interactive => s.lineHeight
                            case _ => Some("1.5")
    ensures r.cursor == if TypeOf(o) == Interactive then Some("pointer") else s.cursor
    ensures r.userSelect == if TypeOf(o) == Interactive then Some("none") else s.userSelect
    ensures r == s.(fontFamily := r.fontFamily, fontWeight := r.fontWeight, lineHeight := r.lineHeight, cursor := r.cursor, userSelect := r.userSelect)
  {
    match TypeOf(o)
    case Heading =>
      s.(fontFamily := Some(HeadingFont), fontWeight := Some("600"), lineHeight := Some("1.25"))
    case Interactive =>
      s.(fontFamily := Some(BodyFont), cursor := Some("pointer"), userSelect := Some("none"))
    case _ =>
      s.(fontFamily := Some(BodyFont), lineHeight := Some("1.5"))
  }

  function Sizing(t: Theme, o: Options, s: StyleMap): (r: StyleMap)
    ensures r.fontSize == Or(FontSizeOf(SizeOf(o)), s.fontSize)
    ensures r == s.(fontSize := r.fontSize)
  {
    match SizeOf(o)
    case Xs => s.(fontSize := Some("0.75rem"))
    case Sm => s.(fontSize := Some("0.875rem"))
    case Md => s.(fontSize := Some("1rem"))
    case Lg => s.(fontSize := Some("1.125rem"))
    case Xl => s.(fontSize := Some("1.25rem"))
    case UnlistedSize => s
  }

  function Colouring(t: Theme, o: Options, s: StyleMap): (r: StyleMap)
    ensures r.color == Some(Ink(t))
    ensures r.backgroundColor == if TypeOf(o) == Container then Some(Paper(t)) else s.backgroundColor
    ensures r == s.(color := r.color, backgroundColor := r.backgroundColor)
  {
    if TypeOf(o) == Container then
      s.(backgroundColor := Some((if t == Dark then Foreground else Background)), color := Some((if t == Dark then Background else Foreground)))
    else
      s.(color := Some((if t == Dark then Background else Foreground)))
  }

  function Bordering(t: Theme, o: Options, s: StyleMap): (r: StyleMap)
    ensures r.border == if BorderedOf(o) then Some(InkBorder(t)) else s.border
    ensures r.borderRadius == if BorderedOf(o) && !RoundedOf(o) then Some(BorderedRadius)
                              else if RoundedOf(o) then Some(RoundRadius)
                              else s.borderRadius
    ensures r == s.(border := r.border, borderRadius := r.borderRadius)
  {
    if BorderedOf(o) then
      s.(border := Some("1px solid " + (if t == Dark then Background else Foreground)), borderRadius := Some(if RoundedOf(o) then "50%" else "4px"))
    else if RoundedOf(o) then
      s.(borderRadius := Some("50%"))
    else
      s
  }

  function Shadowing(t: Theme, o: Options, s: StyleMap): (r: StyleMap)
    ensures r.boxShadow == if ShadowOf(o) then Some(SoftShadow) else s.boxShadow
    ensures r == s.(boxShadow := r.boxShadow)
  {
    if ShadowOf(o) then s.(boxShadow := Some("0 2px 4px rgba(0,0,0,0.1)")) else s
  }

  function Transitioning(t: Theme, o: Options, s: StyleMap): (r: StyleMap)
    ensures r.transition == if TypeOf(o) == Interactive then Some(EaseTransition) else s.transition
    ensures r == s.(transition := r.transition)
  {
    if TypeOf(o) == Interactive then s.(transition := Some("all 0.2s ease")) else s
  }

  /** `applyBaseStyles` under theme `t` on an element whose style was `s`:
      the final value of every property, block by block, and every property
      outside the cascade left as it was. */
  function Apply(t: Theme, o: Options, s: StyleMap): (r: StyleMap)
    // reset
    ensures r.margin == Some("0") && r.padding == Some("0") && r.boxSizing == Some("border-box")
    // typography
    ensures r.fontFamily == Some(if TypeOf(o) == Heading then HeadingFont else BodyFont)
    ensures r.fontWeight == if TypeOf(o) == Heading then Some("600") else s.fontWeight
    ensures r.lineHeight == match TypeOf(o)
                            case Heading => Some("1.25")
                            case Interactive => s.lineHeight
                            case _ => Some("1.5")
    ensures r.cursor == if TypeOf(o) == Interactive then Some("pointer") else s.cursor
    ensures r.userSelect == if TypeOf(o) == Interactive then Some("none") else s.userSelect
    // size
    ensures r.fontSize == Or(FontSizeOf(SizeOf(o)), s.fontSize)
    // colours
    ensures r.color == Some(Ink(t))
    ensures r.backgroundColor == if TypeOf(o) == Container then Some(Paper(t)) else s.backgroundColor
    // border
    ensures r.border == if BorderedOf(o) then Some(InkBorder(t)) else s.border
    ensures r.borderRadius == if BorderedOf(o) && !RoundedOf(o) then Some(BorderedRadius)
                              else if RoundedOf(o) then Some(RoundRadius)
                              else s.borderRadius
    // shadow and transition
    ensures r.boxShadow == if ShadowOf(o) then Some(SoftShadow) else s.boxShadow
    ensures r.transition == if TypeOf(o) == Interactive then Some(EaseTransition) else s.transition
    // nothing else
    ensures r == s.(margin := r.margin, padding := r.padding, boxSizing := r.boxSizing,
                    fontFamily := r.fontFamily, fontWeight := r.fontWeight, lineHeight := r.lineHeight,
                    cursor := r.cursor, userSelect := r.userSelect, fontSize := r.fontSize,
                    color := r.color, backgroundColor := r.backgroundColor, border := r.border,
                    borderRadius := r.borderRadius, boxShadow := r.boxShadow, transition := r.transition)
  {
    Transitioning(t, o,
      Shadowing(t, o,
        Bordering(t, o,
          Colouring(t, o,
            Sizing(t, o,
              Typography(t, o,
                Reset(t, o, s)))))))
  }

  /** The bundle a call writes, read property by property: `None` where the
      call writes nothing. */
  function Bundle(t: Theme, o: Options): StyleMap {
    var ty := TypeOf(o);
    Unstyled.(
      margin := Some("0"), padding := Some("0"), boxSizing := Some("border-box"),
      fontFamily := Some(if ty == Heading then HeadingFont else BodyFont),
      fontWeight := if ty == Heading then Some("600") else None,
      lineHeight := if ty == Heading then Some("1.25") else if ty == Interactive then None else Some("1.5"),
      cursor := if ty == Interactive then Some("pointer") else None,
      userSelect := if ty == Interactive then Some("none") else None,
      fontSize := FontSizeOf(SizeOf(o)),
      color := Some(Ink(t)),
      backgroundColor := if ty == Container then Some(Paper(t)) else None,
      border := if BorderedOf(o) then Some(InkBorder(t)) else None,
      borderRadius := if BorderedOf(o) then Some(if RoundedOf(o) then RoundRadius else BorderedRadius)
                      else if RoundedOf(o) then Some(RoundRadius) else None,
      boxShadow := if ShadowOf(o) then Some(SoftShadow) else None,
      transition := if ty == Interactive then Some(EaseTransition) else None)
  }

  /** Every write is a constant fixed by the theme and the options: the
      result is the prior style overlaid with one bundle that does not
      depend on it. */
  lemma ApplyIsOverlay(t: Theme, o: Options, s: StyleMap)
    ensures Apply(t, o, s) == Overlay(s, Bundle(t, o))
  {
  }

  /** Applying twice under the same theme is applying once. */
  lemma ApplyIdempotent(t: Theme, o: Options, s: StyleMap)
    ensures Apply(t, o, Apply(t, o, s)) == Apply(t, o, s)
  {
  }

  /** An element-only call gives text defaults: body font, line-height 1.5,
      1rem, ink text; border, radius, shadow, background and transition are
      left as they were. */
  lemma ElementOnlyDefaults(t: Theme, s: StyleMap)
    ensures var r := Apply(t, ElementOnly, s);
      && r.fontFamily == Some(BodyFont) && r.lineHeight == Some("1.5")
      && r.fontSize == Some("1rem") && r.color == Some(Ink(t))
      && r.border == s.border && r.borderRadius == s.borderRadius
      && r.boxShadow == s.boxShadow && r.backgroundColor == s.backgroundColor
      && r.transition == s.transition && r.cursor == s.cursor
  {
  }
}

=== FILE: button.dfy ===
/** The button widget: an interactive, bordered, square-cornered element
    whose base styles are overridden by a variant colour table and a size
    table, with a disabled state. The click handler and the hover opacity
    are event wiring and are not modelled. */
module Button {
  import opened Wrappers
  import opened Tokens
  import opened ThemeMode
  import opened Style
  import opened BaseStyles

  /** The colour variants. `UnlistedVariant` is any other string, which
      falls through to the default branch. */
  datatype Variant = PrimaryVariant | SecondaryVariant | SuccessVariant | WarningVariant | ErrorVariant | UnlistedVariant

  /** The constructor's options; `htmlType` is the `type` option. */
  datatype ButtonOptions = ButtonOptions(
    text: string, variant: Option<Variant>, disabled: Option<bool>,
    htmlType: Option<string>, size: Option<Size>)

  /** The rendered button. */
  datatype Button = Button(text: string, htmlType: string, disabled: bool, style: StyleMap)

  /** `options.variant || 'primary'` and `options.size || 'md'`. */
  function VariantOf(o: ButtonOptions): Variant { o.variant.GetOr(PrimaryVariant) }
  function SizeOfButton(o: ButtonOptions): Size { o.size.GetOr(Md) }

  /** The base-style call: interactive, bordered, not rounded. */
  function BaseCall(z: Size): Options {
    Options(Some(Interactive), Some(z), Some(false), None, Some(true))
  }

  /** The background each variant paints. */
  function VariantColor(v: Variant): string {
    match v
    case PrimaryVariant => Primary
    case SecondaryVariant => Secondary
    case SuccessVariant => SuccessColor
    case WarningVariant => WarningColor
    case ErrorVariant => ErrorColor
    case UnlistedVariant => Primary
  }

  /** The padding and font size each size writes; every size outside
      sm/md/lg takes the md row. */
  function SizePadding(z: Size): string {
    match z
    case Sm => SpacingXs + " " + SpacingSm
    case Lg => SpacingMd + " " + SpacingLg
    case _ => SpacingSm + " " + SpacingMd
  }

  function SizeFont(z: Size): string {
    match z
    case Sm => "0.875rem"
    case Lg => "1.125rem"
    case _ => "1rem"
  }

  /** The text colour `applyVariantStyles` picks: the foreground token in
      dark mode and the background token in light mode. */
  function TextColor(t: Theme): (c: string)
    ensures c == Paper(t) && c != Ink(t)
  {
    if t == Dark then Foreground else Background
  }

  /** The constructor under theme `t`. The variant colour, the inverted text
      colour and the size row replace what the base styles wrote for those
      four properties; every other property is the base style's; the ink
      border and 4px radius come from the base call. */
  function Create(t: Theme, o: ButtonOptions): (b: Button)
    ensures b.text == o.text
    ensures b.htmlType == StrOr(o.htmlType, "button")
    ensures b.disabled == (o.disabled == Some(true))
    ensures b.style.backgroundColor == Some(VariantColor(VariantOf(o)))
    ensures b.style.color == Some(Paper(t)) && b.style.color != Apply(t, BaseCall(SizeOfButton(o)), Unstyled).color
    ensures b.style.padding == Some(SizePadding(SizeOfButton(o)))
    ensures b.style.fontSize == Some(SizeFont(SizeOfButton(o)))
    ensures b.style.border == Some(InkBorder(t)) && b.style.borderRadius == Some(BorderedRadius)
    ensures b.style.cursor == Some("pointer") && b.style.transition == Some(EaseTransition)
    ensures b.style == Apply(t, BaseCall(SizeOfButton(o)), Unstyled).(
              backgroundColor := b.style.backgroundColor, color := b.style.color,
              padding := b.style.padding, fontSize := b.style.fontSize)
  {
    var z := SizeOfButton(o);
    var base := Apply(t, BaseCall(z), Unstyled);
    var variant := base.(backgroundColor := Some(VariantColor(VariantOf(o))), color := Some(TextColor(t)));
    var sized := variant.(padding := Some(SizePadding(z)), fontSize := Some(SizeFont(z)));
    Button(o.text, StrOr(o.htmlType, "button"), FlagOr(o.disabled), sized)
  }

  /** Replaces the label and nothing else. */
  function SetText(b: Button, text: string): (r: Button)
    ensures r.text == text && r == b.(text := r.text)
  {
    b.(text := text)
  }

  /** Disables or re-enables: the flag, a dimmed or full opacity, and a
      not-allowed or pointer cursor; nothing else changes. */
  function SetDisabled(b: Button, d: bool): (r: Button)
    ensures r.disabled == d
    ensures r.style.opacity == Some(if d then "0.7" else "1")
    ensures r.style.cursor == Some(if d then "not-allowed" else "pointer")
    ensures r == b.(disabled := d, style := b.style.(opacity := r.style.opacity, cursor := r.style.cursor))
  {
    b.(disabled := d, style := b.style.(opacity := Some(if d then "0.7" else "1"),
                                        cursor := Some(if d then "not-allowed" else "pointer")))
  }

  /** Omitted and unlisted variants paint the primary colour, and the five
      named variants paint five different colours. */
  lemma VariantTable()
    ensures VariantColor(UnlistedVariant) == VariantColor(PrimaryVariant) == Primary
    ensures forall v: Variant, w: Variant :: v != w && !v.UnlistedVariant? && !w.UnlistedVariant? ==> VariantColor(v) != VariantColor(w)
  {
  }

  /** Only the last of several `setDisabled` calls is visible. */
  lemma SetDisabledLastWins(b: Button, d: bool, e: bool)
    ensures SetDisabled(SetDisabled(b, d), e) == SetDisabled(b, e)
  {
  }

  /** The label and the disabled state are independent of each other. */
  lemma SetDisabledCommutesWithText(b: Button, d: bool, text: string)
    ensures SetText(SetDisabled(b, d), text) == SetDisabled(SetText(b, text), d)
  {
  }

  /** A button constructed with `disabled: true` is disabled, yet it keeps
      the enabled look: the pointer cursor and no dimmed opacity, unlike
      one disabled through `setDisabled`. */
  lemma DisabledAtConstruction(t: Theme, o: ButtonOptions)
    requires o.disabled == Some(true)
    ensures Create(t, o).disabled
    ensures Create(t, o).style.cursor == Some("pointer") && Create(t, o).style.opacity == None
    ensures SetDisabled(Create(t, o.(disabled := None)), true).style.cursor == Some("not-allowed")
  {
  }
}

=== FILE: dropdown.dfy ===
/** The dropdown widget: a trigger button and an absolutely positioned menu
    of item buttons inside a relatively positioned container. Item actions
    are opaque values of type `A`; clicking an item hands its action back. */
module Dropdown {
  import opened Wrappers
  import opened Tokens
  import opened ThemeMode
  import opened Style
  import opened BaseStyles

  datatype Align = AlignLeft | AlignRight

  /** One requested item. */
  datatype Entry<A> = Entry(text: string, action: A)

  /** The constructor's options; `size` is one of the shared size names. */
  datatype DropdownOptions<A> = DropdownOptions(
    triggerText: string, items: seq<Entry<A>>, align: Option<Align>, size: Option<Size>)

  /** A rendered menu button and the action its click runs. */
  datatype MenuItem<A> = MenuItem(text: string, style: StyleMap, action: A)

  /** The widget: the three elements' styles, the trigger label, the items
      and whether the menu is open. */
  datatype State<A> = State(
    container: StyleMap, triggerText: string, trigger: StyleMap,
    menu: StyleMap, items: seq<MenuItem<A>>, isOpen: bool)

  /** `options.size || 'md'`. */
  function SizeFor<A>(o: DropdownOptions<A>): Size {
    o.size.GetOr(Md)
  }

  /** The options of the base-style calls the constructor makes. */
  function ContainerCall(z: Size): Options { Options(Some(Container), Some(z), None, None, None) }
  function TriggerCall(z: Size): Options { Options(Some(Interactive), Some(z), Some(false), None, Some(false)) }
  function MenuCall(z: Size): Options { Options(Some(Container), Some(z), None, Some(true), Some(true)) }
  function ItemCall(z: Size): Options { Options(Some(Interactive), Some(z), None, None, None) }

  /** The container: container base styles, then relative positioning as an
      inline block. It is painted in paper and ink and is not interactive. */
  function ContainerStyle(t: Theme, z: Size): (r: StyleMap)
    ensures r.position == Some("relative") && r.display == Some("inline-block")
    ensures r.backgroundColor == Some(Paper(t)) && r.color == Some(Ink(t))
    ensures r.cursor == None && r.transition == None
  {
    Apply(t, ContainerCall(z), Unstyled).(position := Some("relative"), display := Some("inline-block"))
  }

  /** The trigger's padding, `spacing.sm spacing.md`. */
  const TriggerPadding := SpacingSm + " " + SpacingMd

  /** The menu: bordered, shadowed container styles, then placed absolutely
      under the trigger against the chosen side (left unless right is
      asked for), above the page, and hidden. */
  function MenuStyle(t: Theme, z: Size, align: Option<Align>): (r: StyleMap)
    ensures r.display == Some("none") && r.position == Some("absolute")
    ensures (if align == Some(AlignRight) then r.right else r.left) == Some("0")
    ensures (if align == Some(AlignRight) then r.left else r.right) == None
    ensures r.top == Some("100%") && r.marginTop == Some(SpacingXs)
    ensures r.minWidth == Some("160px") && r.zIndex == Some("1000")
    ensures r.border == Some(InkBorder(t)) && r.borderRadius == Some(BorderedRadius)
    ensures r.boxShadow == Some(SoftShadow) && r.backgroundColor == Some(Paper(t))
  {
    var b := Apply(t, MenuCall(z), Unstyled).(position := Some("absolute"));
    var sided := if align.GetOr(AlignLeft) == AlignRight then b.(right := Some("0")) else b.(left := Some("0"));
    sided.(top := Some("100%"), marginTop := Some(SpacingXs), minWidth := Some("160px"),
           zIndex := Some("1000"), display := Some("none"))
  }

  /** An item: interactive base styles, then a full-width, left-aligned,
      borderless, square block that keeps the pointer and transition. */
  function ItemStyle(t: Theme, z: Size): (r: StyleMap)
    ensures r.display == Some("block") && r.width == Some("100%")
    ensures r.textAlign == Some("left") && r.border == Some("none") && r.borderRadius == Some("0")
    ensures r.cursor == Some("pointer") && r.transition == Some(EaseTransition)
    ensures r.fontSize == FontSizeOf(z) && r.color == Some(Ink(t))
  {
    Apply(t, ItemCall(z), Unstyled).(display := Some("block"), width := Some("100%"), textAlign := Some("left"),
                                     border := Some("none"), borderRadius := Some("0"))
  }

  /** The menu items, one per entry, in order. */
  function Items<A>(t: Theme, z: Size, entries: seq<Entry<A>>): (r: seq<MenuItem<A>>)
    ensures |r| == |entries|
    ensures forall i :: 0 <= i < |r| ==>
              r[i] == MenuItem(entries[i].text, ItemStyle(t, z), entries[i].action)
  {
    seq(|entries|, i requires 0 <= i < |entries| => MenuItem(entries[i].text, ItemStyle(t, z), entries[i].action))
  }

  /** The menu's display agrees with the open flag. */
  predicate Shown<A>(d: State<A>) {
    d.menu.display == Some(if d.isOpen then "block" else "none")
  }

  /** The constructor as written: the second base-style call, the one for
      the trigger, is made on the container, so the container turns
      interactive (pointer cursor, no text selection, a transition), while
      the trigger has only its padding. */
  function CreateAsWritten<A>(t: Theme, o: DropdownOptions<A>): (d: State<A>)
    ensures d.container == Apply(t, TriggerCall(SizeFor(o)), ContainerStyle(t, SizeFor(o)))
    ensures d.trigger == Unstyled.(padding := Some(TriggerPadding))
    ensures d.triggerText == o.triggerText
    ensures d.menu == MenuStyle(t, SizeFor(o), o.align) && d.items == Items(t, SizeFor(o), o.items)
    ensures !d.isOpen && Shown(d)
  {
    var z := SizeFor(o);
    State(Apply(t, TriggerCall(z), ContainerStyle(t, z)), o.triggerText, Unstyled.(padding := Some(TriggerPadding)),
          MenuStyle(t, z, o.align), Items(t, z, o.items), false)
  }

  /** The discrepancy: as written the trigger button gets no cursor, colour
      or transition of its own, and the container takes the pointer cursor
      and transition instead. */
  lemma TriggerUnstyled<A>(t: Theme, o: DropdownOptions<A>)
    ensures CreateAsWritten(t, o).trigger.cursor == None && CreateAsWritten(t, o).trigger.color == None
    ensures CreateAsWritten(t, o).container.cursor == Some("pointer")
    ensures CreateAsWritten(t, o).container.transition == Some(EaseTransition)
    ensures Create(t, o).trigger.cursor == Some("pointer") && Create(t, o).container.cursor == None
  {
  }

  /** The trigger corrected: interactive, unbordered, unrounded base
      styles, then the padding. */
  function TriggerStyle(t: Theme, z: Size): (r: StyleMap)
    ensures r.padding == Some(TriggerPadding)
    ensures r.cursor == Some("pointer") && r.userSelect == Some("none")
    ensures r.transition == Some(EaseTransition) && r.color == Some(Ink(t))
    ensures r.border == None && r.borderRadius == None
  {
    Apply(t, TriggerCall(z), Unstyled).(padding := Some(TriggerPadding))
  }

  /** The constructor corrected: each element gets its own base styles. The
      menu starts closed, with one item per entry. */
  function Create<A>(t: Theme, o: DropdownOptions<A>): (d: State<A>)
    ensures d.container == ContainerStyle(t, SizeFor(o)) && d.trigger == TriggerStyle(t, SizeFor(o))
    ensures d.triggerText == o.triggerText
    ensures |d.items| == |o.items|
    ensures forall i :: 0 <= i < |d.items| ==> d.items[i].text == o.items[i].text && d.items[i].action == o.items[i].action
    ensures d.menu == MenuStyle(t, SizeFor(o), o.align) && d.items == Items(t, SizeFor(o), o.items)
    ensures !d.isOpen && Shown(d)
  {
    var z := SizeFor(o);
    State(ContainerStyle(t, z), o.triggerText, TriggerStyle(t, z), MenuStyle(t, z, o.align),
          Items(t, z, o.items), false)
  }

  /** Showing the menu touches only the flag and the menu's display. */
  function Open<A>(d: State<A>): (r: State<A>)
    ensures r.isOpen && Shown(r)
    ensures r.items == d.items && r.trigger == d.trigger && r.container == d.container
    ensures r.triggerText == d.triggerText && r.menu == d.menu.(display := Some("block"))
  {
    d.(isOpen := true, menu := d.menu.(display := Some("block")))
  }

  /** Hiding the menu touches only the flag and the menu's display. */
  function Close<A>(d: State<A>): (r: State<A>)
    ensures !r.isOpen && Shown(r)
    ensures r.items == d.items && r.trigger == d.trigger && r.container == d.container
    ensures r.triggerText == d.triggerText && r.menu == d.menu.(display := Some("none"))
  {
    d.(isOpen := false, menu := d.menu.(display := Some("none")))
  }

  /** A click on the trigger: the flag flips, the display follows it, and
      nothing else changes. */
  function Toggle<A>(d: State<A>): (r: State<A>)
    ensures r.isOpen == !d.isOpen && Shown(r)
    ensures r.items == d.items && r.trigger == d.trigger && r.container == d.container
    ensures r.triggerText == d.triggerText
    ensures r.menu == d.menu.(display := Some(if r.isOpen then "block" else "none"))
  {
    if d.isOpen then Close(d) else Open(d)
  }

  /** Two clicks on the trigger put the widget back as it was. */
  lemma ToggleTwice<A>(d: State<A>)
    requires Shown(d)
    ensures Toggle(Toggle(d)) == d
  {
  }

  /** A click on item `i`: its action is returned for the caller to run,
      and the menu closes. */
  function ClickItem<A>(d: State<A>, i: nat): (r: (State<A>, A))
    requires i < |d.items|
    ensures r.1 == d.items[i].action
    ensures !r.0.isOpen && Shown(r.0) && r.0.items == d.items
    ensures r.0.trigger == d.trigger && r.0.container == d.container && r.0.triggerText == d.triggerText
    ensures r.0.menu == d.menu.(display := Some("none"))
  {
    (Close(d), d.items[i].action)
  }
}

=== FILE: form_validation.dfy ===
/** `validateForm`: a left-to-right fold over (field, predicate, message)
    rules that records, per field, the message of the last rule that failed. */
module FormValidation {
  import opened Wrappers

  /** A validation rule. Its predicate sees the record's value for the field,
      or `None` when the record has no such field. */
  datatype Rule<!V> = Rule(field: string, validate: Option<V> -> bool, message: string)

  datatype Outcome = Outcome(valid: bool, errors: map<string, string>)

  /** `data[field]`. */
  function Lookup<V>(data: map<string, V>, field: string): Option<V> {
    if field in data then Some(data[field]) else None
  }

  /** Rule `r` rejects the record. */
  predicate Fails<V>(data: map<string, V>, r: Rule<V>) {
    !r.validate(Lookup(data, r.field))
  }

  /** Rule `i` is the last failing rule for its field. */
  ghost predicate LastFailure<V>(data: map<string, V>, rules: seq<Rule<V>>, i: int) {
    && 0 <= i < |rules|
    && Fails(data, rules[i])
    && forall j :: i < j < |rules| && rules[j].field == rules[i].field ==> !Fails(data, rules[j])
  }

  /** A field is present when some rule for it fails. */
  ghost predicate SomeFailure<V>(data: map<string, V>, rules: seq<Rule<V>>, f: string) {
    exists i :: 0 <= i < |rules| && rules[i].field == f && Fails(data, rules[i])
  }

  /** The error map after running `rules` in order: each failing rule writes
      its message under its field. */
  function Errors<V>(data: map<string, V>, rules: seq<Rule<V>>): map<string, string>
    decreases |rules|
  {
    if rules == [] then map[]
    else
      var r := rules[|rules| - 1];
      var e := Errors(data, rules[..|rules| - 1]);
      if Fails(data, r) then e[r.field := r.message] else e
  }

  /** Field `f` is in the error map exactly when some rule for it fails. */
  lemma {:induction false} ErrorsDomain<V>(data: map<string, V>, rules: seq<Rule<V>>, f: string)
    ensures f in Errors(data, rules) <==> SomeFailure(data, rules, f)
    decreases |rules|
  {
    if rules != [] {
      var n := |rules|;
      var init := rules[..n - 1];
      var r := rules[n - 1];
      ErrorsDomain(data, init, f);
      if SomeFailure(data, rules, f) && !(Fails(data, r) && r.field == f) {
        var i :| 0 <= i < n && rules[i].field == f && Fails(data, rules[i]);
        assert init[i] == rules[i];
      }
      if SomeFailure(data, init, f) {
        var i :| 0 <= i < n - 1 && init[i].field == f && Fails(data, init[i]);
        assert rules[i] == init[i];
      }
    }
  }

  /** A recorded field holds the message of the last rule for it that
      fails. */
  lemma {:induction false} ErrorsLast<V>(data: map<string, V>, rules: seq<Rule<V>>, f: string)
    requires f in Errors(data, rules)
    ensures exists i :: LastFailure(data, rules, i) && rules[i].field == f
                        && Errors(data, rules)[f] == rules[i].message
    decreases |rules|
  {
    var n := |rules|;
    var init := rules[..n - 1];
    var r := rules[n - 1];
    if Fails(data, r) && r.field == f {
      assert LastFailure(data, rules, n - 1);
    } else {
      ErrorsLast(data, init, f);
      var i :| LastFailure(data, init, i) && init[i].field == f && Errors(data, init)[f] == init[i].message;
      assert forall j :: 0 <= j < n - 1 ==> init[j] == rules[j];
      assert LastFailure(data, rules, i);
    }
  }

  /** Both facts for every field at once. */
  lemma ErrorsCharacterised<V>(data: map<string, V>, rules: seq<Rule<V>>)
    ensures forall f :: f in Errors(data, rules) <==> SomeFailure(data, rules, f)
    ensures forall f :: f in Errors(data, rules) ==>
      exists i :: LastFailure(data, rules, i) && rules[i].field == f
                  && Errors(data, rules)[f] == rules[i].message
  {
    forall f ensures f in Errors(data, rules) <==> SomeFailure(data, rules, f) {
      ErrorsDomain(data, rules, f);
    }
    forall f | f in Errors(data, rules)
      ensures exists i :: LastFailure(data, rules, i) && rules[i].field == f
                          && Errors(data, rules)[f] == rules[i].message
    {
      ErrorsLast(data, rules, f);
    }
  }

  /** `validateForm(data, rules)`: the error map, and `valid` exactly when it
      has no keys. */
  function ValidateForm<V>(data: map<string, V>, rules: seq<Rule<V>>): (o: Outcome)
    ensures o.valid <==> o.errors == map[]
    ensures o.valid <==> forall i :: 0 <= i < |rules| ==> !Fails(data, rules[i])
    ensures forall f :: f in o.errors <==> SomeFailure(data, rules, f)
    ensures forall f :: f in o.errors ==>
      exists i :: LastFailure(data, rules, i) && rules[i].field == f && o.errors[f] == rules[i].message
  {
    var e := Errors(data, rules);
    ErrorsCharacterised(data, rules);
    assert e == map[] ==> forall i :: 0 <= i < |rules| ==> !Fails(data, rules[i]) by {
      if e == map[] {
        forall i | 0 <= i < |rules| ensures !Fails(data, rules[i]) {
          if Fails(data, rules[i]) {
            assert SomeFailure(data, rules, rules[i].field);
          }
        }
      }
    }
    assert e != map[] ==> |e.Keys| != 0 by {
      if e != map[] {
        var f :| f in e;
        assert f in e.Keys;
      }
    }
    Outcome(|e.Keys| == 0, e)
  }

  /** No rules, no errors. */
  lemma EmptyRulesValid<V>(data: map<string, V>)
    ensures ValidateForm(data, []) == Outcome(true, map[])
  {
  }

  /** A rule that passes leaves every recorded error as it was. */
  lemma {:induction false} PassingRuleKeepsErrors<V>(data: map<string, V>, rules: seq<Rule<V>>, r: Rule<V>)
    requires !Fails(data, r)
    ensures Errors(data, rules + [r]) == Errors(data, rules)
  {
    assert (rules + [r])[..|rules + [r]| - 1] == rules;
  }

  /** A rule that fails overwrites its field with its own message and leaves
      every other field as it was. */
  lemma {:induction false} FailingRuleOverwrites<V>(data: map<string, V>, rules: seq<Rule<V>>, r: Rule<V>)
    requires Fails(data, r)
    ensures Errors(data, rules + [r]) == Errors(data, rules)[r.field := r.message]
  {
    assert (rules + [r])[..|rules + [r]| - 1] == rules;
  }
}

=== FILE: input.dfy ===
/** The text input widget: a column container holding an optional label, the
    input element, an optional helper line and an optional error line, with
    a size table, theme colours and an error state. The container's own
    layout styles, the icon wrapper and the change and key callbacks are not
    modelled. */
module Input {
  import opened Wrappers
  import opened Tokens
  import opened ThemeMode
  import opened Style
  import opened BaseStyles

  /** The constructor's options. `inputType` is the `type` option; `None` is
      an omitted option, and an empty string is falsy wherever the source
      tests a string. */
  datatype InputOptions = InputOptions(
    inputType: Option<string>, value: Option<string>, placeholder: Option<string>,
    labelText: Option<string>, disabled: Option<bool>, required: Option<bool>,
    autocomplete: Option<string>, size: Option<Size>, rounded: Option<bool>,
    error: Option<string>, helperText: Option<string>)

  /** Omitted options: `type` text, `size` md, nothing else. */
  const NoOptions := InputOptions(None, None, None, None, None, None, None, None, None, None, None)

  /** A piece of text with its colour. */
  datatype Span = Span(text: string, color: string)

  /** The label: its text, its colour and the required marker, if any. */
  datatype Label = Label(text: string, color: string, mark: Option<Span>)

  /** The input element's attributes and inline style. */
  datatype Field = Field(
    inputType: string, value: string, placeholder: Option<string>, autocomplete: Option<string>,
    disabled: bool, required: bool, style: StyleMap)

  /** The widget. `setupTheme` is the theme read when the input element was
      styled, which the blur handler keeps using; `error` is the text of the
      error line, if one is shown. */
  datatype Input = Input(
    setupTheme: Theme, caption: Option<Label>, field: Field,
    helper: Option<Span>, error: Option<string>)

  /** The container's children, in document order. */
  datatype Part = LabelPart(caption: Label) | FieldPart | HelperPart(helper: Span) | ErrorPart(text: string)

  /** The size the constructor uses: the `md` default, and an explicitly
      undefined size, both take the default row. */
  function SizeOfInput(o: InputOptions): Size { o.size.GetOr(Md) }

  /** The size table: padding, font size and radius (rounded, square). Every
      size other than sm and lg takes the default row. */
  function Padding(z: Size): (p: string)
    ensures p == match z case Sm => "4px 8px" case Lg => "16px 24px" case _ => "8px 16px"
  {
    match z
    case Sm => SpacingXs + " " + SpacingSm
    case Lg => SpacingMd + " " + SpacingLg
    case _ => SpacingSm + " " + SpacingMd
  }

  function FontSize(z: Size): string {
    match z
    case Sm => "0.875rem"
    case Lg => "1.125rem"
    case _ => "1rem"
  }

  function Radius(z: Size, rounded: bool): string {
    match z
    case Sm => if rounded then "12px" else "4px"
    case Lg => if rounded then "20px" else "6px"
    case _ => if rounded then "16px" else "4px"
  }

  /** The marker a required label carries. */
  const RequiredMark := Span(" *", ErrorColor)

  /** The focus ring: the primary colour at the `20` alpha suffix. */
  const FocusRing := "0 0 0 2px " + Primary + "20"

  /** The input element's style after set-up under theme `t`, before any
      error is shown: the size table, the theme colours and the fixed
      properties. */
  function FieldStyle(t: Theme, z: Size, rounded: bool): (r: StyleMap)
    ensures z == Sm ==> r.padding == Some("4px 8px") && r.fontSize == Some("0.875rem")
                        && r.borderRadius == Some(if rounded then "12px" else "4px")
    ensures z == Lg ==> r.padding == Some("16px 24px") && r.fontSize == Some("1.125rem")
                        && r.borderRadius == Some(if rounded then "20px" else "6px")
    ensures z != Sm && z != Lg ==> r.padding == Some("8px 16px") && r.fontSize == Some("1rem")
                                   && r.borderRadius == Some(if rounded then "16px" else "4px")
    ensures r.color == Some(Ink(t)) && r.backgroundColor == Some(Paper(t))
    ensures r.border == Some("1px solid " + Ink(t))
    ensures r.borderColor == None && r.boxShadow == None
  {
    Unstyled.(fontFamily := Some(BodyFont), color := Some(Ink(t)), backgroundColor := Some(Paper(t)),
              border := Some(InkBorder(t)), outline := Some("none"), transition := Some(EaseTransition),
              boxSizing := Some("border-box"), width := Some("100%"),
              padding := Some(Padding(z)), fontSize := Some(FontSize(z)), borderRadius := Some(Radius(z, rounded)))
  }

  /** The constructor under theme `t`. */
  function Create(t: Theme, o: InputOptions): (i: Input)
    ensures i.setupTheme == t
    ensures i.field.inputType == StrOr(o.inputType, "text")
    ensures i.field.value == StrOr(o.value, "")
    ensures i.field.placeholder == (if Truthy(o.placeholder) then o.placeholder else None)
    ensures i.field.disabled == FlagOr(o.disabled) && i.field.required == FlagOr(o.required)
    ensures i.field.style == FieldStyle(t, SizeOfInput(o), FlagOr(o.rounded)).(borderColor := i.field.style.borderColor)
    // label, helper and error
    ensures i.caption.Some? <==> Truthy(o.labelText)
    ensures i.caption.Some? ==> i.caption.value.text == o.labelText.value && i.caption.value.color == Ink(t)
    ensures i.caption.Some? ==> (i.caption.value.mark.Some? <==> FlagOr(o.required))
    ensures i.caption.Some? && i.caption.value.mark.Some? ==> i.caption.value.mark.value == Span(" *", ErrorColor)
    ensures i.helper.Some? <==> Truthy(o.helperText)
    ensures i.error == (if Truthy(o.error) then o.error else None)
    ensures i.field.style.borderColor == (if Truthy(o.error) then Some(ErrorColor) else None)
  {
    var z := SizeOfInput(o);
    var style := FieldStyle(t, z, FlagOr(o.rounded));
    var field := Field(StrOr(o.inputType, "text"), StrOr(o.value, ""),
                       if Truthy(o.placeholder) then o.placeholder else None,
                       if Truthy(o.autocomplete) then o.autocomplete else None,
                       FlagOr(o.disabled), FlagOr(o.required),
                       if Truthy(o.error) then style.(borderColor := Some(ErrorColor)) else style);
    var caption := if Truthy(o.labelText) then Some(Label(o.labelText.value, Ink(t), if FlagOr(o.required) then Some(RequiredMark) else None))
                 else None;
    var helper := if Truthy(o.helperText) then Some(Span(o.helperText.value, Ink(t) + "80")) else None;
    Input(t, caption, field, helper, if Truthy(o.error) then o.error else None)
  }

  /** The container's children: the label inserted first, the input, then
      the helper and error lines appended in that order. An error line is
      always the last child, so there is never more than one. */
  function Children(i: Input): (ps: seq<Part>)
    ensures FieldPart in ps
    ensures forall k :: 0 <= k < |ps| && ps[k].ErrorPart? ==> k == |ps| - 1
    ensures forall k :: 0 <= k < |ps| && ps[k].LabelPart? ==> k == 0
    ensures i.error.Some? ==> ps[|ps| - 1] == ErrorPart(i.error.value)
    ensures i.error.None? ==> forall k :: 0 <= k < |ps| ==> !ps[k].ErrorPart?
  {
    (if i.caption.Some? then [LabelPart(i.caption.value)] else [])
    + [FieldPart]
    + (if i.helper.Some? then [HelperPart(i.helper.value)] else [])
    + (if i.error.Some? then [ErrorPart(i.error.value)] else [])
  }

  function GetValue(i: Input): string { i.field.value }

  /** Writes the value and nothing else. */
  function SetValue(i: Input, v: string): (r: Input)
    ensures GetValue(r) == v
    ensures r == i.(field := i.field.(value := v))
  {
    i.(field := i.field.(value := v))
  }

  /** `setError(e)` under the theme `t` in force at the call: any error line
      is removed first; a non-empty text shows a new one and turns the border
      the error colour, and null or "" restores the ink border. Nothing else
      changes. */
  function SetError(i: Input, t: Theme, e: Option<string>): (r: Input)
    ensures Truthy(e) ==> r.error == e && r.field.style.borderColor == Some(ErrorColor)
    ensures !Truthy(e) ==> r.error == None && r.field.style.borderColor == Some(Ink(t))
    ensures r == i.(error := r.error, field := i.field.(style := i.field.style.(borderColor := r.field.style.borderColor)))
  {
    if Truthy(e) then
      i.(error := e, field := i.field.(style := i.field.style.(borderColor := Some(ErrorColor))))
    else
      i.(error := None, field := i.field.(style := i.field.style.(borderColor := Some(if t == Dark then Background else Foreground))))
  }

  /** The focus handler: primary border and the focus ring. */
  function Focus(i: Input): (r: Input)
    ensures r.field.style.borderColor == Some(Primary) && r.field.style.boxShadow == Some(FocusRing)
    ensures r == i.(field := i.field.(style := i.field.style.(borderColor := r.field.style.borderColor, boxShadow := r.field.style.boxShadow)))
  {
    i.(field := i.field.(style := i.field.style.(borderColor := Some(Primary), boxShadow := Some(FocusRing))))
  }

  /** The blur handler: the ink of the set-up theme as border colour, and no
      ring. */
  function Blur(i: Input): (r: Input)
    ensures r.field.style.borderColor == Some(Ink(i.setupTheme)) && r.field.style.boxShadow == Some("none")
    ensures r == i.(field := i.field.(style := i.field.style.(borderColor := r.field.style.borderColor, boxShadow := r.field.style.boxShadow)))
  {
    i.(field := i.field.(style := i.field.style.(borderColor := Some(Ink(i.setupTheme)), boxShadow := Some("none"))))
  }

  /** `setValue` then `getValue` gives back the value, whatever happened
      before. */
  lemma SetValueGetValue(i: Input, v: string, w: string)
    ensures GetValue(SetValue(i, v)) == v
    ensures SetValue(SetValue(i, w), v) == SetValue(i, v)
  {
  }

  /** A second `setError` replaces the first: there is only ever the latest
      error line, and clearing after showing leaves no line at all. */
  lemma SetErrorReplaces(i: Input, t: Theme, e: Option<string>, f: Option<string>)
    ensures SetError(SetError(i, t, e), t, f) == SetError(i, t, f)
    ensures !Truthy(f) ==> forall p :: p in Children(SetError(SetError(i, t, e), t, f)) ==> !p.ErrorPart?
  {
  }

  /** One user-visible step on a constructed input. */
  datatype Step = SetValueStep(v: string) | SetErrorStep(t: Theme, e: Option<string>) | FocusStep | BlurStep

  function Apply1(i: Input, s: Step): Input {
    match s
    case SetValueStep(v) => SetValue(i, v)
    case SetErrorStep(t, e) => SetError(i, t, e)
    case FocusStep => Focus(i)
    case BlurStep => Blur(i)
  }

  function Run(i: Input, steps: seq<Step>): Input
    decreases |steps|
  {
    if steps == [] then i else Run(Apply1(i, steps[0]), steps[1..])
  }

  /** No step touches the label, the helper, the attributes other than the
      value, or any style property other than the border colour and ring. */
  lemma {:induction false} RunKeepsLayout(i: Input, steps: seq<Step>)
    ensures Run(i, steps).caption == i.caption && Run(i, steps).helper == i.helper
    ensures Run(i, steps).setupTheme == i.setupTheme
    ensures Run(i, steps).field.(value := i.field.value, style := i.field.style) == i.field
    ensures Run(i, steps).field.style.(borderColor := i.field.style.borderColor, boxShadow := i.field.style.boxShadow)
            == i.field.style
    decreases |steps|
  {
    if steps != [] {
      RunKeepsLayout(Apply1(i, steps[0]), steps[1..]);
    }
  }

  /** The blur handler ignores the error state: after an error is shown,
      focusing and leaving the field puts the ink border back although the
      error line is still there. */
  lemma BlurHidesErrorBorder(i: Input, t: Theme, e: string)
    requires e != ""
    ensures var r := Blur(Focus(SetError(i, t, Some(e))));
      r.error == Some(e) && r.field.style.borderColor == Some(Ink(i.setupTheme)) && Ink(i.setupTheme) != ErrorColor
  {
  }

  /** The required marker appears only on a label, after its text. */
  lemma RequiredNeedsLabel(t: Theme, o: InputOptions)
    requires FlagOr(o.required) && !Truthy(o.labelText)
    ensures Create(t, o).caption == None && Create(t, o).field.required
  {
  }
}

=== FILE: loader.dfy ===
/** The loader widget: a container holding one indicator (spinner, dots or a
    progress bar) and an optional message line. The theme in force when a
    part is built is passed in; nothing reads it later. */
module Loader {
  import opened Wrappers
  import opened ThemeMode
  import Number

  /** The type names. `setType` compares type strings, so an unlisted type
      keeps its name, which is none of the four listed ones, and two
      unlisted types are equal only when their names are. */
  datatype LoaderType = SpinnerType | DotsType | BarType | ProgressType | UnlistedType(name: string)

  /** The four type names the code lists; an `UnlistedType` never carries
      one of them. */
  predicate ListedName(s: string) {
    s == "spinner" || s == "dots" || s == "bar" || s == "progress"
  }
  datatype LoaderSize = Sm | Md | Lg | UnlistedSize

  /** A property of the caller's options object: left out, or present with
      a value that may be `undefined` (`None`). The spread keeps a default
      only for a property that is left out. */
  datatype Key<T> = Omitted | Passed(value: Option<T>)

  /** The options after the constructor's defaults (`spinner`, `md`) have
      been spread under the caller's. `kind` is `None` when the caller
      passed the type as `undefined`. An explicit `undefined` size reads the
      size tables' default rows just as an unlisted size does, and no code
      compares sizes, so it is kept as `UnlistedSize`. */
  datatype LoaderOptions = LoaderOptions(
    kind: Option<LoaderType>, size: LoaderSize, color: Option<string>,
    message: Option<string>, progress: Option<real>)

  /** The constructor's defaulting. The options without defaults read the
      same whether left out or passed as `undefined`. */
  function Resolve(kind: Key<LoaderType>, size: Key<LoaderSize>, color: Option<string>,
                   message: Option<string>, progress: Option<real>): LoaderOptions
  {
    var k := match kind
      case Omitted => Some(SpinnerType)
      case Passed(v) => v;
    var z := match size
      case Omitted => Md
      case Passed(v) => v.GetOr(UnlistedSize);
    LoaderOptions(k, z, color, message, progress)
  }

  /** The types that build a bar. */
  predicate IsBar(k: Option<LoaderType>) {
    k == Some(BarType) || k == Some(ProgressType)
  }

  /** `getSizeValue`: the indicator's size in pixels. */
  function SizeValue(z: LoaderSize): real {
    match z
    case Sm => 24.0
    case Lg => 48.0
    case _ => 32.0
  }

  /** `getFontSize`: the message's font size. */
  function FontSize(z: LoaderSize): string {
    match z
    case Sm => "0.75rem"
    case Lg => "1rem"
    case _ => "0.875rem"
  }

  /** The constructor's defaults give way to the caller's options, even to
      an explicit `undefined`: that type still builds the spinner, and that
      size still reads the md rows. */
  lemma ResolveDefaults(k: LoaderType, z: LoaderSize, c: Option<string>, m: Option<string>, p: Option<real>, t: Theme)
    ensures Resolve(Omitted, Omitted, c, m, p).kind == Some(SpinnerType) && Resolve(Omitted, Omitted, c, m, p).size == Md
    ensures Resolve(Passed(Some(k)), Passed(Some(z)), c, m, p) == LoaderOptions(Some(k), z, c, m, p)
    ensures var o := Resolve(Passed(None), Passed(None), c, m, p);
      o.kind == None && Build(o, t).SpinnerView? &&
      SizeValue(o.size) == SizeValue(Md) && FontSize(o.size) == FontSize(Md)
  {
  }

  /** The size tables, and the bar geometry they give: a 48x6, 64x8 or
      96x12 pixel track for sm, md and lg. */
  lemma SizeTables(c: string, p: Option<real>)
    ensures SizeValue(Sm) == 24.0 && SizeValue(Md) == 32.0 && SizeValue(Lg) == 48.0 && SizeValue(UnlistedSize) == 32.0
    ensures FontSize(Sm) == "0.75rem" && FontSize(Md) == "0.875rem" && FontSize(Lg) == "1rem" && FontSize(UnlistedSize) == "0.875rem"
    ensures BarOf(c, SizeValue(Sm), p).width == 48.0 && BarOf(c, SizeValue(Sm), p).height == 6.0
    ensures BarOf(c, SizeValue(Md), p).width == 64.0 && BarOf(c, SizeValue(Md), p).height == 8.0
    ensures BarOf(c, SizeValue(Lg), p).width == 96.0 && BarOf(c, SizeValue(Lg), p).height == 12.0
  {
  }

  /** One bouncing dot: its diameter, colour and animation delay in seconds. */
  datatype Dot = Dot(diameter: real, color: string, delay: real)

  /** The indicator element as built. Pixel and percent values are numbers;
      the spinner's ring is translucent black apart from its coloured arc. */
  datatype Indicator =
    | SpinnerView(diameter: real, ringWidth: real, arcColor: string)
    | DotsView(dots: seq<Dot>)
    | BarView(width: real, height: real, track: string, radius: real, fill: real, fillColor: string)

  /** The indicator colour: the caller's, else the theme ink. */
  function IndicatorColor(o: LoaderOptions, t: Theme): string {
    StrOr(o.color, Ink(t))
  }

  /** `createLoader`: the builder the type selects, with `spinner` as the
      fallback. */
  function Build(o: LoaderOptions, t: Theme): (ind: Indicator)
    ensures IsBar(o.kind) <==> ind.BarView?
    ensures o.kind == Some(DotsType) <==> ind.DotsView?
    ensures ind.DotsView? ==>
              |ind.dots| == 3 &&
              forall i :: 0 <= i < 3 ==>
                ind.dots[i] == Dot(SizeValue(o.size) / 4.0, IndicatorColor(o, t), i as real * 0.16)
    ensures ind.BarView? ==>
              ind.width == 2.0 * SizeValue(o.size) && ind.height >= 4.0 &&
              ind.radius == ind.height / 2.0 &&
              ind.track == IndicatorColor(o, t) + "20" && ind.fillColor == IndicatorColor(o, t) &&
              ind.fill == o.progress.GetOr(0.0)
    ensures ind.SpinnerView? ==>
              ind.diameter == SizeValue(o.size) && ind.ringWidth >= 2.0 &&
              ind.arcColor == IndicatorColor(o, t)
  {
    var color := IndicatorColor(o, t);
    var size := SizeValue(o.size);
    match o.kind
    case Some(DotsType) => DotsView(seq(3, i => Dot(size / 4.0, color, i as real * 0.16)))
    case Some(BarType) => BarOf(color, size, o.progress)
    case Some(ProgressType) => BarOf(color, size, o.progress)
    case _ => SpinnerView(size, Number.Max(2.0, size / 10.0), color)
  }

  /** `createBarLoader`: a track twice as wide as the size, at least 4px
      high, filled to the initial progress (unclamped; missing or zero means
      0). */
  function BarOf(color: string, size: real, progress: Option<real>): Indicator {
    var h := Number.Max(4.0, size / 4.0);
    BarView(2.0 * size, h, color + "20", h / 2.0, progress.GetOr(0.0), color)
  }

  /** The message line. */
  datatype Message = Message(text: string, fontSize: string, color: string)

  /** `setupMessage` and the creating branch of `setMessage`. */
  function MessageOf(text: string, o: LoaderOptions, t: Theme): Message {
    Message(text, FontSize(o.size), Ink(t))
  }

  /** The container's children in document order. */
  datatype Part = IndicatorPart(indicator: Indicator) | MessagePart(message: Message)
  datatype Slot = IndicatorSlot | MessageSlot

  /** A loader: options, the current indicator and message elements, and the
      order in which the container holds them. */
  datatype State = State(options: LoaderOptions, indicator: Indicator, message: Option<Message>, order: seq<Slot>)

  /** The container holds the indicator once, and the message once when it
      exists. */
  predicate Valid(l: State) {
    if l.message.None? then l.order == [IndicatorSlot]
    else l.order == [IndicatorSlot, MessageSlot] || l.order == [MessageSlot, IndicatorSlot]
  }

  /** The indicator is the container's first child. */
  predicate IndicatorFirst(l: State) {
    Valid(l) && l.order[0] == IndicatorSlot
  }

  /** The indicator is the one the current type builds, up to the fill of a
      bar, which `setProgress` moves. */
  predicate Consistent(l: State) {
    IsBar(l.options.kind) <==> l.indicator.BarView?
  }

  /** What the container shows. */
  function Children(l: State): seq<Part>
    requires Valid(l)
  {
    if l.order == [IndicatorSlot] then [IndicatorPart(l.indicator)]
    else if l.order == [IndicatorSlot, MessageSlot] then [IndicatorPart(l.indicator), MessagePart(l.message.value)]
    else [MessagePart(l.message.value), IndicatorPart(l.indicator)]
  }

  /** The message text shown, if any. */
  function MessageText(l: State): Option<string> {
    if l.message.Some? then Some(l.message.value.text) else None
  }

  /** The constructor: the indicator first, then the message when the
      option is a non-empty string. */
  function Create(o: LoaderOptions, t: Theme): (l: State)
    ensures IndicatorFirst(l) && Consistent(l)
    ensures l.options == o
    ensures Children(l)[0] == IndicatorPart(Build(o, t))
    ensures |Children(l)| == 2 <==> Truthy(o.message)
    ensures Truthy(o.message) ==> Children(l)[1] == MessagePart(Message(o.message.value, FontSize(o.size), Ink(t)))
  {
    if Truthy(o.message) then State(o, Build(o, t), Some(MessageOf(o.message.value, o, t)), [IndicatorSlot, MessageSlot])
    else State(o, Build(o, t), None, [IndicatorSlot])
  }

  /** `setProgress(p)`: on a bar or progress loader the fill becomes `p`
      clamped to [0, 100]; on any other type nothing changes. */
  function SetProgress(l: State, p: real): (r: State)
    ensures IsBar(l.options.kind) && l.indicator.BarView? ==>
              r == l.(indicator := l.indicator.(fill := Number.Clamp(p, 0.0, 100.0)))
    ensures !IsBar(l.options.kind) ==> r == l
    ensures Consistent(l) ==> Consistent(r)
  {
    if (l.options.kind == Some(ProgressType) || l.options.kind == Some(BarType)) && l.indicator.BarView? then
      l.(indicator := l.indicator.(fill := Number.Min(100.0, Number.Max(0.0, p))))
    else l
  }

  /** After `setProgress` the fill lies in [0, 100], and repeating the call
      changes nothing. */
  lemma SetProgressBounded(l: State, p: real)
    requires Consistent(l)
    ensures SetProgress(l, p).indicator.BarView? ==> 0.0 <= SetProgress(l, p).indicator.fill <= 100.0
    ensures SetProgress(SetProgress(l, p), p) == SetProgress(l, p)
  {
  }

  /** `setMessage(m)`: an existing message takes the new text, even an empty
      one; otherwise a non-empty text creates the message at the end. */
  function SetMessage(l: State, m: string, t: Theme): (r: State)
    requires Valid(l)
    ensures Valid(r)
    ensures MessageText(r) == if l.message.Some? || m != "" then Some(m) else MessageText(l)
    ensures r.indicator == l.indicator && r.options == l.options
    ensures l.message.Some? ==> r.order == l.order && r.message.value.fontSize == l.message.value.fontSize
    ensures l.message.Some? ==> r.message == Some(l.message.value.(text := m))
    ensures l.message.None? && m == "" ==> r == l
    ensures l.message.None? && m != "" ==> Children(r) == Children(l) + [MessagePart(MessageOf(m, l.options, t))]
  {
    if l.message.Some? then l.(message := Some(l.message.value.(text := m)))
    else if m != "" then l.(message := Some(MessageOf(m, l.options, t)), order := l.order + [MessageSlot])
    else l
  }

  /** `setType(k)` as written: for a new type the indicator element is
      removed and the rebuilt one appended at the end of the container,
      after any message. */
  function SetTypeAsWritten(l: State, k: LoaderType, t: Theme): (r: State)
    requires Valid(l)
    ensures Valid(r)
    ensures Some(k) == l.options.kind ==> r == l
    ensures Some(k) != l.options.kind ==> r.indicator == Build(l.options.(kind := Some(k)), t) && r.message == l.message
    ensures Some(k) != l.options.kind ==> r.options == l.options.(kind := Some(k))
    ensures Some(k) != l.options.kind ==> r.order[|r.order| - 1] == IndicatorSlot
  {
    if Some(k) == l.options.kind then l
    else
      var o := l.options.(kind := Some(k));
      var rest := if l.message.Some? then [MessageSlot] else [];
      l.(options := o, indicator := Build(o, t), order := rest + [IndicatorSlot])
  }

  /** The discrepancy: with a message present, changing the type moves the
      message above the indicator. */
  lemma SetTypeMovesMessage(o: LoaderOptions, k: LoaderType, t: Theme)
    requires Truthy(o.message) && Some(k) != o.kind
    ensures IndicatorFirst(Create(o, t))
    ensures Children(SetTypeAsWritten(Create(o, t), k, t))[0] == MessagePart(MessageOf(o.message.value, o, t))
    ensures !IndicatorFirst(SetTypeAsWritten(Create(o, t), k, t))
  {
  }

  /** A type passed as `undefined` builds a spinner, yet `setType("spinner")`
      on it still counts as a change: the indicator is rebuilt and, with a
      message present, lands below it. */
  lemma UndefinedTypeRebuilt(c: Option<string>, m: Option<string>, p: Option<real>, t: Theme)
    requires Truthy(m)
    ensures var o := Resolve(Passed(None), Omitted, c, m, p);
      Create(o, t).indicator.SpinnerView? &&
      SetTypeAsWritten(Create(o, t), SpinnerType, t) != Create(o, t) &&
      !IndicatorFirst(SetTypeAsWritten(Create(o, t), SpinnerType, t))
  {
    SetTypeMovesMessage(Resolve(Passed(None), Omitted, c, m, p), SpinnerType, t);
  }

  /** Two different unlisted type names both build the spinner, yet
      switching from one to the other is a change: the indicator is rebuilt
      and, with a message present, lands below it. */
  lemma UnlistedTypesCompareByName(o: LoaderOptions, a: string, b: string, t: Theme)
    requires Truthy(o.message) && o.kind == Some(UnlistedType(a)) && a != b
    requires !ListedName(a) && !ListedName(b)
    ensures Create(o, t).indicator.SpinnerView? && Build(o.(kind := Some(UnlistedType(b))), t).SpinnerView?
    ensures SetTypeAsWritten(Create(o, t), UnlistedType(b), t).options.kind == Some(UnlistedType(b))
    ensures !IndicatorFirst(SetTypeAsWritten(Create(o, t), UnlistedType(b), t))
  {
    SetTypeMovesMessage(o, UnlistedType(b), t);
  }

  /** `setType(k)` corrected: the rebuilt indicator takes the old one's
      place, so the layout order is kept. */
  function SetType(l: State, k: LoaderType, t: Theme): (r: State)
    requires Valid(l)
    ensures Valid(r) && r.order == l.order && r.message == l.message
    ensures Some(k) == l.options.kind ==> r == l
    ensures Some(k) != l.options.kind ==> r.indicator == Build(l.options.(kind := Some(k)), t) && r.options == l.options.(kind := Some(k))
  {
    if Some(k) == l.options.kind then l
    else
      var o := l.options.(kind := Some(k));
      l.(options := o, indicator := Build(o, t))
  }

  /** The public calls after construction. */
  datatype Call = ProgressCall(p: real) | MessageCall(m: string, mt: Theme) | TypeCall(k: LoaderType, kt: Theme)

  /** A run of calls against the corrected `setType`. */
  function Run(l: State, calls: seq<Call>): State
    requires Valid(l) && Consistent(l)
    decreases |calls|
  {
    if calls == [] then l
    else
      var next := match calls[0]
        case ProgressCall(p) => SetProgress(l, p)
        case MessageCall(m, mt) => SetMessage(l, m, mt)
        case TypeCall(k, kt) => SetType(l, k, kt);
      StepKeeps(l, calls[0]);
      Run(next, calls[1..])
  }

  /** One call keeps the shape invariants. */
  lemma StepKeeps(l: State, c: Call)
    requires Valid(l) && Consistent(l)
    ensures var next := match c
              case ProgressCall(p) => SetProgress(l, p)
              case MessageCall(m, mt) => SetMessage(l, m, mt)
              case TypeCall(k, kt) => SetType(l, k, kt);
            Valid(next) && Consistent(next) && (IndicatorFirst(l) ==> IndicatorFirst(next))
  {
    match c
    case ProgressCall(p) =>
    case MessageCall(m, mt) =>
    case TypeCall(k, kt) =>
      if Some(k) != l.options.kind {
        var o := l.options.(kind := Some(k));
        assert IsBar(o.kind) <==> Build(o, kt).BarView?;
      }
  }

  /** From construction on, whatever is called, the indicator stays the
      container's first child and stays the kind the type selects. */
  lemma {:induction false} RunKeepsIndicatorFirst(l: State, calls: seq<Call>)
    requires IndicatorFirst(l) && Consistent(l)
    ensures IndicatorFirst(Run(l, calls)) && Consistent(Run(l, calls))
    decreases |calls|
  {
    if calls != [] {
      StepKeeps(l, calls[0]);
      var next := match calls[0]
        case ProgressCall(p) => SetProgress(l, p)
        case MessageCall(m, mt) => SetMessage(l, m, mt)
        case TypeCall(k, kt) => SetType(l, k, kt);
      RunKeepsIndicatorFirst(next, calls[1..]);
    }
  }
}

=== FILE: locales.dfy ===
/** The locale registry and the translation lookup `t`: a dot-separated path
    is walked through nested translation tables, and `{{key}}` placeholders in
    the string found are replaced, first occurrence only, in the order the
    variables are listed. */
module Locales {
  import opened Wrappers

  /** A translation value. `Other` is any non-string, non-object value (a
      number, a boolean); `Null` is `null`. */
  datatype Value = Str(s: string) | Table(entries: map<string, Value>) | Other | Null

  /** The language tables and the current language. */
  datatype Registry = Registry(current: string, languages: map<string, map<string, Value>>)

  /** At start-up the language is "en" and nothing is registered. */
  const Initial := Registry("en", map[])

  /** `registerLocale(lang, data)`. */
  function RegisterLocale(reg: Registry, lang: string, data: map<string, Value>): (r: Registry)
    ensures r.current == reg.current
    ensures lang in r.languages && r.languages[lang] == data
    ensures forall l :: l != lang ==> (l in r.languages <==> l in reg.languages)
    ensures forall l :: l != lang && l in reg.languages ==> r.languages[l] == reg.languages[l]
  {
    reg.(languages := reg.languages[lang := data])
  }

  /** `setLanguage(lang)`: throws for an unregistered language and leaves the
      registry as it was; otherwise makes `lang` current. */
  function SetLanguage(reg: Registry, lang: string): (r: Result<Registry, string>)
    ensures lang !in reg.languages ==> r == Failure("Locale '" + lang + "' not registered")
    ensures lang in reg.languages ==> r == Success(Registry(lang, reg.languages))
  {
    if lang !in reg.languages then Failure("Locale '" + lang + "' not registered")
    else Success(reg.(current := lang))
  }

  // ---- Splitting a path on '.' ----

  /** `path.split('.')`: always at least one piece, none containing a dot;
      empty pieces are kept. */
  function Split(s: string): (parts: seq<string>)
    ensures |parts| >= 1
    ensures forall i :: 0 <= i < |parts| ==> '.' !in parts[i]
    decreases |s|
  {
    if |s| == 0 then [""]
    else
      var rest := Split(s[1..]);
      if s[0] == '.' then [""] + rest
      else [[s[0]] + rest[0]] + rest[1..]
  }

  /** The pieces glued back together with dots. */
  function Join(parts: seq<string>): string
    requires |parts| >= 1
    decreases |parts|
  {
    if |parts| == 1 then parts[0] else parts[0] + "." + Join(parts[1..])
  }

  /** Splitting then joining gives the path back. */
  lemma {:induction false} JoinSplit(s: string)
    ensures Join(Split(s)) == s
    decreases |s|
  {
    if |s| > 0 {
      var rest := Split(s[1..]);
      JoinSplit(s[1..]);
      if s[0] == '.' {
        assert Split(s) == [""] + rest;
        assert ([""] + rest)[1..] == rest;
        assert s == "" + "." + s[1..];
      } else {
        var parts := [[s[0]] + rest[0]] + rest[1..];
        assert Split(s) == parts;
        if |rest| == 1 {
          assert s == [s[0]] + s[1..];
        } else {
          assert parts[1..] == rest[1..];
          assert Join(rest) == rest[0] + "." + Join(rest[1..]);
          assert s == [s[0]] + s[1..];
        }
      }
    }
  }

  /** Splitting a dot-free prefix glued to a string extends its first piece. */
  lemma {:induction false} SplitDotFreePrefix(a: string, s: string)
    requires '.' !in a
    ensures Split(a + s) == [a + Split(s)[0]] + Split(s)[1..]
    decreases |a|
  {
    if |a| > 0 {
      SplitDotFreePrefix(a[1..], s);
      assert (a + s)[1..] == a[1..] + s;
      assert (a + s)[0] == a[0];
      assert a[0] in a;
      assert [a[0]] + (a[1..] + Split(s)[0]) == a + Split(s)[0];
    } else {
      var ps := Split(s);
      assert a + s == s;
      assert a + ps[0] == ps[0];
      assert [ps[0]] + ps[1..] == ps;
    }
  }

  /** Joining dot-free pieces then splitting gives the pieces back. */
  lemma {:induction false} SplitJoin(parts: seq<string>)
    requires |parts| >= 1
    requires forall i :: 0 <= i < |parts| ==> '.' !in parts[i]
    ensures Split(Join(parts)) == parts
    decreases |parts|
  {
    if |parts| == 1 {
      SplitDotFreePrefix(parts[0], "");
      assert parts[0] + "" == parts[0];
    } else {
      var tail := Join(parts[1..]);
      SplitJoin(parts[1..]);
      assert Join(parts) == parts[0] + ("." + tail);
      SplitDotFreePrefix(parts[0], "." + tail);
      assert ("." + tail)[1..] == tail;
      assert Split("." + tail) == [""] + parts[1..];
      assert parts[0] + "" == parts[0];
      assert [parts[0]] + parts[1..] == parts;
    }
  }

  // ---- Walking the tables ----

  /** The decimal value of a string of digits. */
  function DigitsValue(k: string): nat
    requires forall i :: 0 <= i < |k| ==> '0' <= k[i] <= '9'
    decreases |k|
  {
    if |k| == 0 then 0
    else 10 * DigitsValue(k[..|k| - 1]) + (k[|k| - 1] as int - '0' as int)
  }

  /** The index a key names when it is a canonical array index (digits, no
      leading zero). */
  function CanonicalIndex(k: string): Option<nat> {
    if |k| > 0 && (forall i :: 0 <= i < |k| ==> '0' <= k[i] <= '9') && (k[0] != '0' || |k| == 1)
    then Some(DigitsValue(k))
    else None
  }

  /** `v?.[key]`, with `None` for null or undefined. A table yields its entry;
      a string yields its one-character string at an index key; anything else
      has no such property. */
  function Step(v: Value, key: string): Option<Value> {
    match v
    case Table(m) => if key in m && !m[key].Null? then Some(m[key]) else None
    case Str(s) =>
      (match CanonicalIndex(key)
       case Some(i) => if i < |s| then Some(Str([s[i]])) else None
       case None => None)
    case _ => None
  }

  /** The loop over the keys: stops at the first null or undefined. */
  function Resolve(v: Option<Value>, keys: seq<string>): Option<Value>
    decreases |keys|
  {
    if keys == [] then v
    else if v.None? then None
    else Resolve(Step(v.value, keys[0]), keys[1..])
  }

  /** The current language's table, if registered. */
  function CurrentTable(reg: Registry): Option<Value> {
    if reg.current in reg.languages then Some(Table(reg.languages[reg.current])) else None
  }

  // ---- Interpolation ----

  /** `pat` occurs in `s` at position `q`. */
  predicate OccursAt(s: string, pat: string, q: int) {
    0 <= q && q + |pat| <= |s| && s[q..q + |pat|] == pat
  }

  /** The first position at or after `from` where `pat` occurs. */
  function FindFrom(s: string, pat: string, from: nat): (r: Option<nat>)
    ensures r.Some? ==>
              from <= r.value && OccursAt(s, pat, r.value) &&
              forall q :: from <= q < r.value ==> !OccursAt(s, pat, q)
    ensures r.None? ==> forall q :: from <= q ==> !OccursAt(s, pat, q)
    decreases |s| - from
  {
    if from + |pat| > |s| then None
    else if s[from..from + |pat|] == pat then Some(from)
    else FindFrom(s, pat, from + 1)
  }

  /** `s.indexOf(pat)`. */
  function FindFirst(s: string, pat: string): (r: Option<nat>)
    ensures r.Some? ==> OccursAt(s, pat, r.value) && forall q :: 0 <= q < r.value ==> !OccursAt(s, pat, q)
    ensures r.None? ==> forall q :: !OccursAt(s, pat, q)
  {
    FindFrom(s, pat, 0)
  }

  /** The replacement text `String.prototype.replace` inserts for a string
      pattern (no capture groups): `$$` is a dollar sign, `$&` the match,
      `` $` `` the text before it, `$'` the text after it; any other `$` is
      literal. */
  function Expand(rep: string, matched: string, before: string, after: string): string
    decreases |rep|
  {
    if |rep| == 0 then ""
    else if rep[0] == '$' && |rep| >= 2 && rep[1] == '$' then "$" + Expand(rep[2..], matched, before, after)
    else if rep[0] == '$' && |rep| >= 2 && rep[1] == '&' then matched + Expand(rep[2..], matched, before, after)
    else if rep[0] == '$' && |rep| >= 2 && rep[1] == '`' then before + Expand(rep[2..], matched, before, after)
    else if rep[0] == '$' && |rep| >= 2 && rep[1] == '\'' then after + Expand(rep[2..], matched, before, after)
    else [rep[0]] + Expand(rep[1..], matched, before, after)
  }

  /** A replacement without `$` is inserted verbatim. */
  lemma {:induction false} ExpandPlain(rep: string, matched: string, before: string, after: string)
    requires '$' !in rep
    ensures Expand(rep, matched, before, after) == rep
    decreases |rep|
  {
    if |rep| > 0 {
      assert rep[0] in rep;
      assert forall c :: c in rep[1..] ==> c in rep;
      ExpandPlain(rep[1..], matched, before, after);
      assert rep == [rep[0]] + rep[1..];
    }
  }

  /** `s.replace(pat, rep)`: only the first occurrence is replaced. */
  function ReplaceFirst(s: string, pat: string, rep: string): string {
    match FindFirst(s, pat)
    case None => s
    case Some(p) => s[..p] + Expand(rep, pat, s[..p], s[p + |pat|..]) + s[p + |pat|..]
  }

  /** The placeholder a variable fills. */
  function Placeholder(key: string): string {
    "{{" + key + "}}"
  }

  /** The loop over the variables, in iteration order. */
  function Interpolate(s: string, vars: seq<(string, string)>): string
    decreases |vars|
  {
    if vars == [] then s
    else Interpolate(ReplaceFirst(s, Placeholder(vars[0].0), vars[0].1), vars[1..])
  }

  // ---- t ----

  /** `t(path, vars)` under registry `reg`. */
  function T(reg: Registry, path: string, vars: Option<seq<(string, string)>>): (r: string)
    ensures CurrentTable(reg).None? ==> r == path
    ensures !Resolve(CurrentTable(reg), Split(path)).Some? ==> r == path
    ensures Resolve(CurrentTable(reg), Split(path)).Some? && !Resolve(CurrentTable(reg), Split(path)).value.Str? ==> r == path
    ensures Resolve(CurrentTable(reg), Split(path)).Some? && Resolve(CurrentTable(reg), Split(path)).value.Str? ==>
              var s := Resolve(CurrentTable(reg), Split(path)).value.s;
              r == if vars.Some? then Interpolate(s, vars.value) else s
  {
    var keys := Split(path);
    match Resolve(CurrentTable(reg), keys)
    case Some(Str(s)) =>
      (match vars
       case None => s
       case Some(vs) => Interpolate(s, vs))
    case _ => path
  }

  /** A replacement without `$` goes in verbatim in place of the first
      occurrence, and the text after it, later occurrences included, is kept. */
  lemma ReplaceFirstPlain(s: string, pat: string, rep: string)
    requires '$' !in rep
    ensures FindFirst(s, pat).None? ==> ReplaceFirst(s, pat, rep) == s
    ensures FindFirst(s, pat).Some? ==>
              var p := FindFirst(s, pat).value;
              ReplaceFirst(s, pat, rep) == s[..p] + rep + s[p + |pat|..]
  {
    match FindFirst(s, pat)
    case None =>
    case Some(p) => ExpandPlain(rep, pat, s[..p], s[p + |pat|..]);
  }

  /** Looking up the path built from dot-free keys walks exactly those keys:
      a string found is returned (interpolated when variables are given), and
      anything else gives back the path. */
  lemma LookupByKeys(reg: Registry, keys: seq<string>, vars: Option<seq<(string, string)>>)
    requires |keys| >= 1
    requires forall i :: 0 <= i < |keys| ==> '.' !in keys[i]
    ensures var found := Resolve(CurrentTable(reg), keys);
            T(reg, Join(keys), vars) ==
              if found.Some? && found.value.Str? then
                (if vars.Some? then Interpolate(found.value.s, vars.value) else found.value.s)
              else Join(keys)
  {
    SplitJoin(keys);
  }

  /** A language registered and then selected is the one `t` reads: a
      top-level string entry under a dot-free key is returned as is. */
  lemma RegisterThenSelect(reg: Registry, lang: string, data: map<string, Value>, key: string)
    requires '.' !in key
    requires key in data && data[key].Str?
    ensures SetLanguage(RegisterLocale(reg, lang, data), lang).Success?
    ensures T(SetLanguage(RegisterLocale(reg, lang, data), lang).value, key, None) == data[key].s
  {
    var r := SetLanguage(RegisterLocale(reg, lang, data), lang).value;
    LookupByKeys(r, [key], None);
  }
}

=== FILE: navigation.dfy ===
/** The navigation bar: bound to an existing element by id, it renders a
    brand, a menu toggle and a link list whose visibility class the toggle
    switches. The bar's fixed styles, the brand and the toggle icon are not
    modelled; the link list is found by its element id `nav-links`, which is
    taken to be this bar's own list once it has rendered. */
module Navigation {
  import opened Wrappers
  import opened Tokens

  /** A requested link: its label and target. */
  datatype NavLink = NavLink(caption: string, href: string)

  /** A rendered link. */
  datatype Anchor = Anchor(href: string, text: string)

  /** What the link list holds. */
  datatype Links = Placeholder(text: string, color: string) | Anchors(anchors: seq<Anchor>)

  /** The rendered link list: its class string and its children. */
  datatype LinkList = LinkList(className: string, links: Links)

  /** The widget: the container id, the open flag, the stored links, and the
      link list once `render` has run. */
  datatype Nav = Nav(containerId: string, isOpen: bool, navLinks: seq<NavLink>, list: Option<LinkList>)

  const PlaceholderText := "No navigation items available"

  /** The class `render` gives the link list: hidden below the md breakpoint. */
  const RenderedClass := "hidden md:flex md:space-x-4"

  /** The part of the toggled class that does not depend on the flag. */
  const ToggledRest := " flex-col md:flex md:flex-row md:space-x-4"

  /** Whether a class string starts with the word `w`. */
  predicate LeadsWith(c: string, w: string) {
    |w| < |c| && c[..|w|] == w && c[|w|] == ' '
  }

  function NotFound(id: string): string {
    "Navigation container \"" + id + "\" not found."
  }

  /** Binding to the element with id `id`: it fails exactly when the document
      has no such element, and starts closed with no links. */
  function New(doc: set<string>, id: string): (r: Result<Nav, string>)
    ensures r.Success? <==> id in doc
    ensures r.Success? ==> !r.value.isOpen && r.value.navLinks == [] && r.value.list == None
    ensures r.Failure? ==> r.error == "Navigation container \"" + id + "\" not found."
  {
    if id in doc then Success(Nav(id, false, [], None)) else Failure(NotFound(id))
  }

  /** The link list's children: the placeholder in the warning colour when
      there are no links, otherwise one anchor per link in order. */
  function ListOf(links: seq<NavLink>): (r: Links)
    ensures links == [] ==> r == Placeholder("No navigation items available", WarningColor)
    ensures links != [] ==> r.Anchors? && |r.anchors| == |links|
    ensures links != [] ==> forall i :: 0 <= i < |links| ==> r.anchors[i] == Anchor(links[i].href, links[i].caption)
  {
    if links == [] then Placeholder(PlaceholderText, WarningColor)
    else Anchors(seq(|links|, i requires 0 <= i < |links| => Anchor(links[i].href, links[i].caption)))
  }

  /** The class the toggle writes: `flex` when open, `hidden` when closed,
      followed by the same remainder either way. */
  function ToggledClass(open: bool): (c: string)
    ensures c == (if open then "flex" else "hidden") + ToggledRest
    ensures LeadsWith(c, "flex") <==> open
    ensures LeadsWith(c, "hidden") <==> !open
  {
    if open then OpenLeads(); "flex" + ToggledRest
    else ClosedLeads(); "hidden" + ToggledRest
  }

  lemma OpenLeads()
    ensures LeadsWith("flex" + ToggledRest, "flex") && !LeadsWith("flex" + ToggledRest, "hidden")
  {
    var c := "flex" + ToggledRest;
    assert c[..4] == "flex";
    assert c[..6][0] == 'f';
  }

  lemma ClosedLeads()
    ensures LeadsWith("hidden" + ToggledRest, "hidden") && !LeadsWith("hidden" + ToggledRest, "flex")
  {
    var c := "hidden" + ToggledRest;
    assert c[..6] == "hidden";
    assert c[..4][0] == 'h';
  }

  /** `render` as written: the links are stored and the list is rebuilt with
      the hidden class, but `isOpen` keeps its value. */
  function RenderAsWritten(n: Nav, links: seq<NavLink>): (r: Nav)
    ensures r.navLinks == links && r.isOpen == n.isOpen
    ensures r.list == Some(LinkList(RenderedClass, ListOf(links)))
    ensures r.containerId == n.containerId
  {
    n.(navLinks := links, list := Some(LinkList(RenderedClass, ListOf(links))))
  }

  /** `render` with the open flag reset to match the hidden list it builds. */
  function Render(n: Nav, links: seq<NavLink>): (r: Nav)
    ensures r.navLinks == links && !r.isOpen
    ensures r.list == Some(LinkList(RenderedClass, ListOf(links)))
    ensures r.containerId == n.containerId
  {
    n.(isOpen := false, navLinks := links, list := Some(LinkList(RenderedClass, ListOf(links))))
  }

  /** `toggleMenu`: flips the flag and, once the list exists, rewrites its
      class; the links are untouched. */
  function ToggleMenu(n: Nav): (r: Nav)
    ensures r.isOpen == !n.isOpen
    ensures r.navLinks == n.navLinks && r.containerId == n.containerId
    ensures n.list.None? ==> r.list == None
    ensures n.list.Some? ==> r.list == Some(n.list.value.(className := ToggledClass(r.isOpen)))
  {
    var open := !n.isOpen;
    match n.list
    case None => n.(isOpen := open)
    case Some(l) => n.(isOpen := open, list := Some(l.(className := ToggledClass(open))))
  }

  /** The list's visibility agrees with the flag: it leads with `flex`
      exactly when the menu is open. */
  predicate Synced(n: Nav) {
    n.list.Some? ==> (LeadsWith(n.list.value.className, "flex") <==> n.isOpen)
  }

  /** The hidden class `render` writes does not lead with `flex`. */
  lemma RenderedClassHidden()
    ensures LeadsWith(RenderedClass, "hidden") && !LeadsWith(RenderedClass, "flex")
  {
    assert RenderedClass[..6] == "hidden";
    assert RenderedClass[..4][0] == 'h';
  }

  /** Both toggling and the corrected render keep the list in step with the
      flag; toggling twice restores the flag and the links. */
  lemma SyncedKept(n: Nav, links: seq<NavLink>)
    requires Synced(n)
    ensures Synced(ToggleMenu(n))
    ensures Synced(Render(n, links))
    ensures ToggleMenu(ToggleMenu(n)).isOpen == n.isOpen
    ensures ToggleMenu(ToggleMenu(n)).navLinks == n.navLinks
  {
    RenderedClassHidden();
  }

  /** The discrepancy: open the menu, render again, and the flag still says
      open while the list is hidden; the next toggle then closes an already
      hidden list, so the first click after a re-render shows nothing. */
  lemma RenderLeavesFlagStale(n: Nav, links: seq<NavLink>)
    requires n.list.Some? && !n.isOpen
    ensures var r := RenderAsWritten(ToggleMenu(n), links);
      r.isOpen && !Synced(r)
    ensures var r := ToggleMenu(RenderAsWritten(ToggleMenu(n), links));
      !r.isOpen && LeadsWith(r.list.value.className, "hidden")
  {
    RenderedClassHidden();
  }
}

=== FILE: number.dfy ===
/** Numeric helpers. JavaScript numbers are modelled as exact reals; NaN and
    signed zero are not modelled. */
module Number {

  /** `Math.min` on two numbers. */
  function Min(a: real, b: real): real {
    if a <= b then a else b
  }

  /** `Math.max` on two numbers. */
  function Max(a: real, b: real): real {
    if a >= b then a else b
  }

  /** `clamp(value, min, max)`: the larger of `min` and the smaller of `max`
      and `value`. */
  function Clamp(value: real, lo: real, hi: real): (r: real)
    ensures lo <= value <= hi ==> r == value
    ensures value < lo ==> r == lo
    ensures lo <= hi && hi < value ==> r == hi
    ensures lo <= hi ==> lo <= r <= hi
    ensures lo > hi ==> r == lo
  {
    Max(lo, Min(hi, value))
  }
}

=== FILE: style.dfy ===
/** Inline styles. An element's `style` object holds one optional string
    per property; the properties are the ones the widgets write, named as
    the DOM spells them in camelCase. */
module Style {
  import opened Wrappers

  /** An element's inline style: `None` is a property never set. */
  datatype StyleMap = StyleMap(
    margin: Option<string>, padding: Option<string>, boxSizing: Option<string>, fontFamily: Option<string>,
    fontWeight: Option<string>, fontSize: Option<string>, lineHeight: Option<string>, cursor: Option<string>,
    userSelect: Option<string>, color: Option<string>, backgroundColor: Option<string>, border: Option<string>,
    borderRadius: Option<string>, borderColor: Option<string>, boxShadow: Option<string>, transition: Option<string>,
    position: Option<string>, display: Option<string>, top: Option<string>, left: Option<string>,
    right: Option<string>, marginTop: Option<string>, minWidth: Option<string>, zIndex: Option<string>,
    width: Option<string>, textAlign: Option<string>, outline: Option<string>, opacity: Option<string>)

  /** The style of a freshly created element. */
  const Unstyled := StyleMap(None, None, None, None, None, None, None, None, None, None, None, None, None, None, None, None, None, None, None, None, None, None, None, None, None, None, None, None)

  /** A set value if there is one, else the fallback. */
  function Or(a: Option<string>, fallback: Option<string>): Option<string> {
    if a.Some? then a else fallback
  }

  /** One style written over another, property by property: whatever `b`
      sets wins, the rest keep `s`'s value. */
  function Overlay(s: StyleMap, b: StyleMap): StyleMap {
    StyleMap(
      Or(b.margin, s.margin), Or(b.padding, s.padding), Or(b.boxSizing, s.boxSizing),
      Or(b.fontFamily, s.fontFamily), Or(b.fontWeight, s.fontWeight), Or(b.fontSize, s.fontSize),
      Or(b.lineHeight, s.lineHeight), Or(b.cursor, s.cursor), Or(b.userSelect, s.userSelect),
      Or(b.color, s.color), Or(b.backgroundColor, s.backgroundColor), Or(b.border, s.border),
      Or(b.borderRadius, s.borderRadius), Or(b.borderColor, s.borderColor), Or(b.boxShadow, s.boxShadow),
      Or(b.transition, s.transition), Or(b.position, s.position), Or(b.display, s.display),
      Or(b.top, s.top), Or(b.left, s.left), Or(b.right, s.right),
      Or(b.marginTop, s.marginTop), Or(b.minWidth, s.minWidth), Or(b.zIndex, s.zIndex),
      Or(b.width, s.width), Or(b.textAlign, s.textAlign), Or(b.outline, s.outline),
      Or(b.opacity, s.opacity))
  }
}

=== FILE: table.dfy ===
/** The table widget: bound to an existing element by id, it renders a list
    of string records as a grid of strings under a header row, or a notice
    when there are no records. The fixed cell styles are not modelled. */
module Table {
  import opened Wrappers
  import opened Tokens

  /** One record: column name to cell text. */
  type Row = map<string, string>

  datatype TableProps = TableProps(columns: seq<string>, data: seq<Row>, emptyMessage: Option<string>)

  /** What the container shows. `Blank` is its state before the first
      render, as far as the widget is concerned. */
  datatype Content =
    | Blank
    | EmptyNotice(text: string, color: string)
    | Grid(header: seq<string>, body: seq<seq<string>>)

  datatype Table = Table(containerId: string, content: Content)

  /** The constructor's error message. */
  function NotFound(id: string): string {
    "Table container \"" + id + "\" not found."
  }

  /** Binding to the element with id `id`, given the ids present in the
      document: it fails exactly when there is no such element. */
  function New(doc: set<string>, id: string): (r: Result<Table, string>)
    ensures r.Success? <==> id in doc
    ensures r.Success? ==> r.value == Table(id, Blank)
    ensures r.Failure? ==> r.error == "Table container \"" + id + "\" not found."
  {
    if id in doc then Success(Table(id, Blank)) else Failure(NotFound(id))
  }

  /** `row[col] || ''`: a missing cell and an empty cell both read as "". */
  function Cell(row: Row, col: string): (c: string)
    ensures col in row ==> c == row[col]
    ensures col !in row ==> c == ""
  {
    if col in row && row[col] != "" then row[col] else ""
  }

  /** The content a render shows, as one comprehension per level: the
      reference the loops of `Render` are held to. */
  function Layout(props: TableProps): Content {
    if props.data == [] then EmptyNotice(StrOr(props.emptyMessage, "No data available"), WarningColor)
    else Grid(props.columns, seq(|props.data|, i requires 0 <= i < |props.data| =>
                               seq(|props.columns|, j requires 0 <= j < |props.columns| => Cell(props.data[i], props.columns[j]))))
  }

  /** One body row, built cell by cell as the inner `forEach` does. */
  method BuildRow(columns: seq<string>, row: Row) returns (cells: seq<string>)
    ensures |cells| == |columns|
    ensures forall j :: 0 <= j < |columns| ==> cells[j] == Cell(row, columns[j])
  {
    cells := [];
    var j := 0;
    while j < |columns|
      invariant 0 <= j <= |columns|
      invariant |cells| == j
      invariant forall k :: 0 <= k < j ==> cells[k] == Cell(row, columns[k])
    {
      cells := cells + [Cell(row, columns[j])];
      j := j + 1;
    }
  }

  /** `render`: the previous content is discarded; an empty data list shows
      the notice in the warning colour, with `emptyMessage` or the default
      text; otherwise the header lists the columns in order and there is one
      body row per record, in order, with one cell per column. */
  method Render(tbl: Table, props: TableProps) returns (r: Table)
    ensures r.containerId == tbl.containerId
    ensures r.content == Layout(props)
    ensures props.data == [] ==>
              r.content == EmptyNotice(StrOr(props.emptyMessage, "No data available"), WarningColor)
    ensures props.data != [] ==> r.content.Grid?
    ensures props.data != [] ==> r.content.header == props.columns && |r.content.body| == |props.data|
    ensures props.data != [] ==> forall i :: 0 <= i < |props.data| ==> |r.content.body[i]| == |props.columns|
    ensures props.data != [] ==> forall i, j :: 0 <= i < |props.data| && 0 <= j < |props.columns| ==>
              r.content.body[i][j] == Cell(props.data[i], props.columns[j])
  {
    if |props.data| == 0 {
      return Table(tbl.containerId, EmptyNotice(StrOr(props.emptyMessage, "No data available"), WarningColor));
    }
    var body: seq<seq<string>> := [];
    var i := 0;
    while i < |props.data|
      invariant 0 <= i <= |props.data|
      invariant |body| == i
      invariant forall k :: 0 <= k < i ==> |body[k]| == |props.columns|
      invariant forall k, j :: 0 <= k < i && 0 <= j < |props.columns| ==> body[k][j] == Cell(props.data[k], props.columns[j])
    {
      var cells := BuildRow(props.columns, props.data[i]);
      body := body + [cells];
      i := i + 1;
    }
    ghost var reference := Layout(props).body;
    forall k | 0 <= k < |body|
      ensures body[k] == reference[k]
    {
      assert forall j :: 0 <= j < |props.columns| ==> body[k][j] == reference[k][j];
    }
    r := Table(tbl.containerId, Grid(props.columns, body));
  }
}

=== FILE: theme_mode.dfy ===
/** The theme store: one process-wide light/dark cell, mirrored onto the
    document root's `data-theme` attribute by every write. */
module ThemeMode {
  import opened Wrappers
  import opened Tokens

  datatype Theme = Light | Dark

  /** The attribute value `setTheme` writes for a mode. */
  function Name(m: Theme): string {
    match m
    case Light => "light"
    case Dark => "dark"
  }

  /** The "ink" convention every styling call shares: the text colour is the
      background token in dark mode and the foreground token in light mode. */
  function Ink(t: Theme): string {
    if t == Dark then Background else Foreground
  }

  /** The surface colour paired with the ink: the opposite token. */
  function Paper(t: Theme): string {
    if t == Dark then Foreground else Background
  }

  /** The stored mode and the root element's `data-theme` attribute, which is
      absent until the first `setTheme`. */
  datatype Store = Store(mode: Theme, rootAttribute: Option<string>)

  /** The store at start-up: light, and no attribute written yet. */
  const Initial := Store(Light, None)

  /** The attribute agrees with the stored mode, or was never written. */
  predicate Mirrored(s: Store) {
    s.rootAttribute.None? || s.rootAttribute == Some(Name(s.mode))
  }

  function SetTheme(s: Store, m: Theme): (r: Store)
    ensures GetTheme(r) == m
    ensures r.rootAttribute == Some(Name(m))
  {
    Store(m, Some(Name(m)))
  }

  /** A pure read of the current mode. */
  function GetTheme(s: Store): Theme {
    s.mode
  }

  /** The store after a run of `setTheme` calls, in order. */
  function SetAll(s: Store, ms: seq<Theme>): Store
    decreases |ms|
  {
    if ms == [] then s else SetAll(SetTheme(s, ms[0]), ms[1..])
  }

  /** The last `setTheme` decides every later read, and the attribute always
      mirrors the mode; with no call at all the store is unchanged. */
  lemma {:induction false} LastSetWins(s: Store, ms: seq<Theme>)
    requires Mirrored(s)
    ensures ms == [] ==> SetAll(s, ms) == s
    ensures ms != [] ==> GetTheme(SetAll(s, ms)) == ms[|ms| - 1]
    ensures ms != [] ==> SetAll(s, ms).rootAttribute == Some(Name(ms[|ms| - 1]))
    ensures Mirrored(SetAll(s, ms))
    decreases |ms|
  {
    if ms != [] {
      LastSetWins(SetTheme(s, ms[0]), ms[1..]);
      if |ms| > 1 {
        assert ms[1..][|ms[1..]| - 1] == ms[|ms| - 1];
      }
    }
  }

  /** From start-up, the mode is light until the first `setTheme`. */
  lemma InitialIsLight()
    ensures GetTheme(Initial) == Light
    ensures Mirrored(Initial)
  {
  }

  /** Ink and paper are always the two different tokens, swapped by the
      theme. */
  lemma InkPaperSwap(t: Theme)
    ensures Ink(t) != Paper(t)
    ensures Ink(Dark) == Paper(Light) && Ink(Light) == Paper(Dark)
  {
  }
}

=== FILE: toast_bus.dfy ===
/** The toast manager: a publish/subscribe registry. Listeners are named by
    ids and held in a set; `show` stamps one record with a fresh id and hands
    it to every current listener. The id generator is a parameter: the caller
    supplies the fresh id that the random UUID source would produce. */
module ToastBus {
  import opened Wrappers

  /** The toast type; `UnlistedToast` stands for any other string, which the
      manager passes through unchanged. */
  datatype ToastType = SuccessToast | ErrorToast | InfoToast | UnlistedToast

  /** What a producer passes to `show`: a toast without its id. */
  datatype ToastRequest = ToastRequest(kind: ToastType, message: string, duration: Option<int>)

  /** The record every listener receives. */
  datatype Toast = Toast(id: string, kind: ToastType, message: string, duration: Option<int>)

  type ListenerId = nat

  datatype Manager = Manager(listeners: set<ListenerId>)

  /** The shared manager starts with no listeners. */
  const Empty := Manager({})

  /** One listener invocation during `show`. */
  datatype Delivery = Delivery(listener: ListenerId, toast: Toast)

  /** `subscribe(l)`: adds `l`. The unsubscribe function it returns is
      modelled by `Unsubscribe(_, l)`. */
  function Subscribe(m: Manager, l: ListenerId): (r: Manager)
    ensures l in r.listeners
    ensures forall k :: k != l ==> (k in r.listeners <==> k in m.listeners)
  {
    Manager(m.listeners + {l})
  }

  /** Calling the function `subscribe(l)` returned: deletes `l`. */
  function Unsubscribe(m: Manager, l: ListenerId): (r: Manager)
    ensures l !in r.listeners
    ensures forall k :: k != l ==> (k in r.listeners <==> k in m.listeners)
  {
    Manager(m.listeners - {l})
  }

  /** The record `show` builds: the caller's fields plus the id. */
  function Stamp(req: ToastRequest, id: string): (t: Toast)
    ensures t.id == id
    ensures t.kind == req.kind && t.message == req.message && t.duration == req.duration
  {
    Toast(id, req.kind, req.message, req.duration)
  }

  /** `show(req)` with `id` as the generated id: the deliveries, in the order
      they are made. Every current listener is invoked exactly once, and all of
      them get the same record. */
  method Show(m: Manager, req: ToastRequest, id: string) returns (log: seq<Delivery>)
    ensures |log| == |m.listeners|
    ensures forall i :: 0 <= i < |log| ==> log[i].listener in m.listeners
    ensures forall l :: l in m.listeners ==> exists i :: 0 <= i < |log| && log[i].listener == l
    ensures forall i, j :: 0 <= i < j < |log| ==> log[i].listener != log[j].listener
    ensures forall i :: 0 <= i < |log| ==> log[i].toast == Toast(id, req.kind, req.message, req.duration)
  {
    var toast := Stamp(req, id);
    var pending := m.listeners;
    log := [];
    while pending != {}
      invariant pending <= m.listeners
      invariant |log| == |m.listeners| - |pending|
      invariant forall i :: 0 <= i < |log| ==> log[i].listener in m.listeners - pending
      invariant forall l :: l in m.listeners - pending ==> exists i :: 0 <= i < |log| && log[i].listener == l
      invariant forall i, j :: 0 <= i < j < |log| ==> log[i].listener != log[j].listener
      invariant forall i :: 0 <= i < |log| ==> log[i].toast == toast
      decreases pending
    {
      var l :| l in pending;
      var before, waiting := log, pending;
      log := log + [Delivery(l, toast)];
      pending := pending - {l};
      forall k | k in m.listeners - pending
        ensures exists i :: 0 <= i < |log| && log[i].listener == k
      {
        if k == l {
          assert log[|log| - 1].listener == k;
        } else {
          assert k in m.listeners - waiting;
          var i :| 0 <= i < |before| && before[i].listener == k;
          assert log[i].listener == k;
        }
      }
    }
    assert m.listeners - pending == m.listeners;
  }

  /** A registry operation, as a client performs it. */
  datatype Op = Sub(l: ListenerId) | Unsub(l: ListenerId)

  function Run(m: Manager, ops: seq<Op>): Manager
    decreases |ops|
  {
    if ops == [] then m
    else
      var m' := match ops[0] case Sub(l) => Subscribe(m, l) case Unsub(l) => Unsubscribe(m, l);
      Run(m', ops[1..])
  }

  /** The last operation naming `l`, if any. */
  function LastOn(ops: seq<Op>, l: ListenerId): Option<Op>
    decreases |ops|
  {
    if ops == [] then None
    else if ops[|ops| - 1].l == l then Some(ops[|ops| - 1])
    else LastOn(ops[..|ops| - 1], l)
  }

  /** However subscriptions and unsubscriptions interleave, a listener is
      subscribed exactly when the last operation naming it was a subscribe,
      or, if none names it, when it was subscribed to begin with. Repeated
      subscribes of one listener leave it in once; repeated unsubscribes are
      no-ops; no operation on another listener affects it. */
  lemma {:induction false} RunMembership(m: Manager, ops: seq<Op>, l: ListenerId)
    ensures l in Run(m, ops).listeners <==>
      match LastOn(ops, l)
      case Some(op) => op.Sub?
      case None => l in m.listeners
    decreases |ops|
  {
    if ops != [] {
      var last := ops[|ops| - 1];
      var init := ops[..|ops| - 1];
      RunSnoc(m, init, last);
      assert ops == init + [last];
      RunMembership(m, init, l);
    }
  }

  /** Running one more operation at the end. */
  lemma {:induction false} RunSnoc(m: Manager, ops: seq<Op>, op: Op)
    ensures Run(m, ops + [op]) ==
      match op case Sub(l) => Subscribe(Run(m, ops), l) case Unsub(l) => Unsubscribe(Run(m, ops), l)
    decreases |ops|
  {
    if ops == [] {
      assert [op][1..] == [];
    } else {
      var m' := match ops[0] case Sub(l) => Subscribe(m, l) case Unsub(l) => Unsubscribe(m, l);
      assert (ops + [op])[1..] == ops[1..] + [op];
      RunSnoc(m', ops[1..], op);
    }
  }

  /** Unsubscribing a listener that was not subscribed before its subscribe
      restores the registry exactly. */
  lemma SubscribeUnsubscribeInverse(m: Manager, l: ListenerId)
    requires l !in m.listeners
    ensures Unsubscribe(Subscribe(m, l), l) == m
  {
  }
}

=== FILE: toast_widget.dfy ===
/** The toast widget: a fixed container that subscribes once to the shared
    toast manager and, for every record it receives, shows an element
    coloured by the toast type, fades it out after the record's duration
    and removes it 300 ms later. Timers are modelled by the time elapsed
    since the record arrived; the container's own fixed styles are not
    modelled. */
module ToastWidget {
  import opened Wrappers
  import opened Tokens
  import opened Style
  import opened ToastBus

  /** A rendered toast: its text, its `data-id` attribute and its style. */
  datatype ToastElement = ToastElement(text: string, dataId: string, style: StyleMap)

  /** The widget is known to the manager by its listener id. */
  datatype Widget = Widget(listener: ListenerId)

  /** The default display time, used when the duration is absent or 0. */
  const DefaultDuration := 3000

  /** The time between the start of the fade and the removal. */
  const FadeTime := 300

  /** `getBackgroundColor`: success and error have their own tokens; info
      and every other type use the secondary token. */
  function BackgroundFor(k: ToastType): (c: string)
    ensures k == SuccessToast ==> c == SuccessColor
    ensures k == ErrorToast ==> c == ErrorColor
    ensures k != SuccessToast && k != ErrorToast ==> c == Secondary
  {
    match k
    case SuccessToast => SuccessColor
    case ErrorToast => ErrorColor
    case _ => Secondary
  }

  /** `duration || 3000`: an absent or zero duration is falsy. */
  function FadeDelay(d: Option<int>): (r: int)
    ensures (d.None? || d.value == 0) ==> r == 3000
    ensures d.Some? && d.value != 0 ==> r == d.value
  {
    if d.Some? && d.value != 0 then d.value else DefaultDuration
  }

  /** The conversion of a timer delay to a 32-bit signed `long`: the integer
      taken modulo 2^32 into [-2^31, 2^31). */
  function ToLong(n: int): (r: int)
    ensures -0x8000_0000 <= r < 0x8000_0000
    ensures (n - r) % 0x1_0000_0000 == 0
    ensures -0x8000_0000 <= n < 0x8000_0000 ==> r == n
  {
    var m := n % 0x1_0000_0000;
    if m >= 0x8000_0000 then m - 0x1_0000_0000 else m
  }

  /** The delay the fade timer actually waits: the delay is converted to a
      `long`, and a negative result is treated as zero. */
  function FadeStart(d: Option<int>): (r: nat)
    ensures 0 <= FadeDelay(d) < 0x8000_0000 ==> r == FadeDelay(d)
    ensures ToLong(FadeDelay(d)) < 0 ==> r == 0
    ensures ToLong(FadeDelay(d)) >= 0 ==> r == ToLong(FadeDelay(d))
    ensures r < 0x8000_0000
  {
    var w := ToLong(FadeDelay(d));
    if w < 0 then 0 else w
  }

  /** Durations past the 32-bit range wrap: 2^31 ms fades at once, and
      2^32 + 1000 ms fades after one second; a negative one fades at once. */
  lemma FadeStartWraps()
    ensures FadeStart(Some(0x8000_0000)) == 0
    ensures FadeStart(Some(0x1_0000_0000 + 1000)) == 1000
    ensures FadeStart(Some(-5)) == 0
    ensures FadeStart(None) == 3000 && FadeStart(Some(0)) == 3000
  {
  }

  /** The element `showToast` appends, before any timer has fired. */
  function Render(t: Toast): (e: ToastElement)
    ensures e.text == t.message && e.dataId == t.id
    ensures e.style.backgroundColor == Some(BackgroundFor(t.kind)) && e.style.color == Some(Background)
    ensures e.style.opacity == Some("1") && e.style.transition == Some("opacity 0.3s ease")
  {
    ToastElement(t.message, t.id,
      Unstyled.(backgroundColor := Some(BackgroundFor(t.kind)), color := Some(Background),
                padding := Some(SpacingSm), borderRadius := Some("6px"), fontFamily := Some(BodyFont),
                boxShadow := Some("0 4px 8px rgba(0,0,0,0.15)"), opacity := Some("1"),
                transition := Some("opacity 0.3s ease")))
  }

  /** The element `elapsed` milliseconds after the record arrived: shown
      until the fade starts, transparent for the next 300 ms, then gone. */
  function At(t: Toast, elapsed: nat): (r: Option<ToastElement>)
    ensures elapsed < FadeStart(t.duration) ==> r == Some(Render(t))
    ensures FadeStart(t.duration) <= elapsed < FadeStart(t.duration) + 300 ==>
              r.Some? && r.value.style.opacity == Some("0")
              && r.value == Render(t).(style := Render(t).style.(opacity := Some("0")))
    ensures elapsed >= FadeStart(t.duration) + 300 ==> r == None
  {
    if elapsed < FadeStart(t.duration) then Some(Render(t))
    else if elapsed < FadeStart(t.duration) + FadeTime then
      var e := Render(t);
      Some(e.(style := e.style.(opacity := Some("0"))))
    else None
  }

  /** Once removed, a toast never comes back, and it was visible from the
      start for its whole display time. */
  lemma RemovedStaysRemoved(t: Toast, a: nat, b: nat)
    requires a <= b && At(t, a).None?
    ensures At(t, b).None?
    ensures t.duration.None? ==> At(t, 2999) == Some(Render(t)) && At(t, 3299).Some? && At(t, 3300).None?
  {
  }

  /** The constructor: the widget subscribes its listener, once. The
      listener is a function bound afresh for each widget, so it is new to
      the manager. */
  function Create(m: Manager, l: ListenerId): (r: (Manager, Widget))
    requires l !in m.listeners
    ensures r.0.listeners == m.listeners + {l} && r.1.listener == l
    ensures |r.0.listeners| == |m.listeners| + 1
  {
    (Subscribe(m, l), Widget(l))
  }

  /** A `show` on the manager after the widget has subscribed: the elements
      the widget appends, one per delivery addressed to it. There is exactly
      one, and it carries the caller's message and the generated id. */
  method Publish(w: Widget, m: Manager, req: ToastRequest, id: string) returns (shown: seq<ToastElement>)
    requires w.listener in m.listeners
    ensures shown == [Render(Stamp(req, id))]
    ensures shown[0].text == req.message && shown[0].dataId == id
    ensures shown[0].style.backgroundColor == Some(BackgroundFor(req.kind))
  {
    var log := Show(m, req, id);
    shown := [];
    var k := 0;
    while k < |log|
      invariant 0 <= k <= |log|
      invariant (exists i :: 0 <= i < k && log[i].listener == w.listener) ==> shown == [Render(Stamp(req, id))]
      invariant (forall i :: 0 <= i < k ==> log[i].listener != w.listener) ==> shown == []
    {
      if log[k].listener == w.listener {
        shown := shown + [Render(log[k].toast)];
      }
      k := k + 1;
    }
    var j :| 0 <= j < |log| && log[j].listener == w.listener;
  }
}

=== FILE: tokens.dfy ===
/** The design tokens: fixed tables of colours, spacing, fonts and
    breakpoints, reproduced as constants. */
module Tokens {

  // Colours
  const Primary := "#3b82f6"
  const Secondary := "#6366f1"
  const SuccessColor := "#22c55e"
  const WarningColor := "#f59e0b"
  const ErrorColor := "#ef4444"
  const Background := "#ffffff"
  const Foreground := "#1f2937"

  // Spacing
  const SpacingXs := "4px"
  const SpacingSm := "8px"
  const SpacingMd := "16px"
  const SpacingLg := "24px"
  const SpacingXl := "32px"

  // Fonts
  const BodyFont := "'Inter', sans-serif"
  const HeadingFont := "'Poppins', sans-serif"

  // Breakpoints
  const BreakpointSm := "640px"
  const BreakpointMd := "768px"
  const BreakpointLg := "1024px"
  const BreakpointXl := "1280px"
}

=== FILE: wrappers.dfy ===
/** Optional values and error results, plus the one JavaScript truthiness
    rule the widgets lean on: `s || fallback` for an optional string. */
module Wrappers {

  /** A value that may be absent (`undefined` in the source). */
  datatype Option<+T> = None | Some(value: T) {

    /** The value, or `default` when absent. */
    function GetOr(default: T): T {
      match this
      case Some(v) => v
      case None => default
    }
  }

  /** The outcome of an operation that can throw. */
  datatype Result<+R, +E> = Success(value: R) | Failure(error: E)

  /** `o || fallback` for an optional string: both an absent value and the
      empty string are falsy. */
  function StrOr(o: Option<string>, fallback: string): (r: string)
    ensures o.Some? && o.value != "" ==> r == o.value
    ensures (o.None? || o.value == "") ==> r == fallback
  {
    if o.Some? && o.value != "" then o.value else fallback
  }

  /** Whether an optional string is truthy: present and non-empty. */
  predicate Truthy(o: Option<string>) {
    o.Some? && o.value != ""
  }

  /** `b || false` for an optional flag. */
  function FlagOr(o: Option<bool>): bool {
    o.Some? && o.value
  }
}
